=== FILE: README.md ===
# Pancake HTTP server core in Dafny

A model of three pieces of the Pancake web server, with proofs about them.

- **The HTTPRewrite virtual machine.** A compiled rewrite ruleset is a sequence of opcodes. `PancakeHTTPRewriteVMExecute` dispatches them in index order through a handler table. It turns the first signal that is not `NEXT_OPCODE` into the ruleset's result: `STOP_EXECUTION` gives 1, `STOP_EXECUTION_ALL` gives 0, `FATAL` gives -1 and raises HTTP 500, and `STOP_PARSER` gives -1. The model has typed opcodes (`RewriteVM.Opcode`), values and direct/callback variables. The request state is a map of direct fields, a log of accepted callback writes, the request's scope group and a 500 flag. Native getters, setters and CALL targets are function-valued parameters (`RewriteVM.Natives`). `RewriteVM.Run` is the reference semantics. `RewriteVM.Execute` is the counted loop as written, proved equal to it.
- **The deflate output filter's first-chunk decision** (`HTTPDeflate.ChunkAsWritten` as the code is written, `HTTPDeflate.Chunk` corrected). It covers the Accept-Encoding byte search on the socket's read buffer (`DeflateToken`), the state changes on the request when the filter engages, and stream reuse on later chunks. The stream allocation goes through the debug allocation ledger.
- **The debug allocation ledger** (`DebugLedger`). It is a map from block address to (size, file, line). It supports allocate, free, reallocate, string duplication and the heap dump total. A failed `_PancakeAssert` prints its condition and exits. The model represents this as the `Abort` result of `Checked<T>`, not as a precondition.

Files: `bytes.dfy` holds the machine types and memchr/strlen. `rewrite_vm.dfy` and `rewrite_vm_properties.dfy` hold the VM. `debug_ledger.dfy` holds the ledger. `deflate_token.dfy` and `http_deflate.dfy` hold the deflate filter.

## Model

| member | source | states |
|---|---|---|
| `RewriteVM.OpcodeNumbers` | HTTPRewrite/PancakeHTTPRewriteVM.h:12-16 | NOP, SET_BOOL, SET_INT, SET_STRING and SET_VARIABLE have opcode numbers 0 to 4 |
| `RewriteVM.HandlerTableMatchesImplemented` | HTTPRewrite/PancakeHTTPRewriteVM.c:43-59 | every opcode number indexes the 15-entry handler table, and the entry is non-NULL exactly for the implemented opcodes (NULL at 4, 8 and 12) |
| `RewriteVM.DispatchOfSignals` | HTTPRewrite/PancakeHTTPRewriteVM.c:61-84 | with signal bytes 2, 1, 0, -1, -2, the loop's switch continues only on NEXT_OPCODE; STOP_EXECUTION returns 1, STOP_EXECUTION_ALL returns 0, STOP_PARSER returns -1, and only FATAL raises 500 |
| `RewriteVM.MatchesIsEquality` | HTTPRewrite/PancakeHTTPRewriteVM.c:192-213 | the handlers' comparison (byte for bool, Int32 for int, equal length then memcmp over that length for strings) is exactly value equality |
| `RewriteVM.SetHandler` | HTTPRewrite/PancakeHTTPRewriteVM.c:95-150 | a SET on a direct variable always continues and stores the literal in that field only; on a callback variable it is FATAL exactly when the setter fails, and an accepted write is appended to the callback-write log; scopes and the 500 flag are untouched |
| `RewriteVM.IsEqualHandler` | HTTPRewrite/PancakeHTTPRewriteVM.c:152-213 | a failed callback read is FATAL; otherwise it continues if and only if the variable's value equals the literal, else STOP_EXECUTION; the request is unchanged |
| `RewriteVM.IsNotEqualHandler` | HTTPRewrite/PancakeHTTPRewriteVM.c:215-276 | a failed callback read is FATAL; otherwise it continues if and only if the value differs from the literal; the request is unchanged |
| `RewriteVM.CallSignal` | HTTPRewrite/PancakeHTTPRewriteVM.c:278-291 | a callback return of 1 continues, 0 stops execution, -1 stops the parser, and any other value is FATAL, each if and only if |
| `RewriteVM.CallHandler` | HTTPRewrite/PancakeHTTPRewriteVM.c:278-291 | CALL leaves the request as it was; the callback's return 1 continues, 0 stops the ruleset, -1 stops the parser, and any other value is fatal |
| `RewriteVM.ActivateScopeHandler` | HTTPRewrite/PancakeHTTPRewriteVM.c:293-301 | ACTIVATE_SCOPE always continues and appends its scope at the end of the request's scope group; variables and the 500 flag are unchanged |
| `RewriteVM.Step` | HTTPRewrite/PancakeHTTPRewriteVM.c:90-301 | no implemented handler returns STOP_EXECUTION_ALL; only CALL can return STOP_PARSER; only SETs and ACTIVATE_SCOPE change the request, and none removes a field |
| `RewriteVM.Run` | HTTPRewrite/PancakeHTTPRewriteVM.c:67-88 | at most numOpcodes opcodes are dispatched; every opcode is dispatched when the run completes, and at least one when it stops early; the result is never 0; it is 1 exactly on completion or STOP_EXECUTION, and -1 exactly on FATAL or STOP_PARSER; HTTP 500 is raised exactly on FATAL |
| `RewriteVM.Execute` | HTTPRewrite/PancakeHTTPRewriteVM.c:67-88 | the counted loop with early returns computes the same result and final request as `Run` |
| `RewriteVMProperties.StopIgnoresRest` | HTTPRewrite/PancakeHTTPRewriteVM.c:70-84 | once an opcode stops the run, appending any opcodes after it changes nothing |
| `RewriteVMProperties.RunAppend` | HTTPRewrite/PancakeHTTPRewriteVM.c:70-87 | opcodes run in index order: when a prefix completes, the rest runs from the request the prefix left, and the opcode counts add up |
| `RewriteVMProperties.ExecutedPrefixDecides` | HTTPRewrite/PancakeHTTPRewriteVM.c:70-87 | the ruleset cut after the last dispatched opcode has the same outcome as the whole ruleset |
| `RewriteVMProperties.ScopeGroupOnlyGrows` | HTTPRewrite/PancakeHTTPRewriteVM.c:293-301 | a run only appends to the request's scope group, and leaves it unchanged if the ruleset has no ACTIVATE_SCOPE |
| `RewriteVMProperties.RunPreservesFieldsTyped` | HTTPRewrite/PancakeHTTPRewriteVM.c:95-150 | when every literal has its variable's declared type, every direct field keeps holding a value of its declared type |
| `RewriteVMProperties.TypedReadsMatchLiteralVariant` | HTTPRewrite/PancakeHTTPRewriteVM.c:152-276 | with typed fields and getters that return their variable's declared type, a test reads a value of its literal's variant, so the tests never compare across variants |
| `RewriteVMProperties.NopsChangeNothing` | HTTPRewrite/PancakeHTTPRewriteVM.c:90-93 | a ruleset of NOPs returns 1, dispatches every opcode and leaves the request unchanged |
| `RewriteVMProperties.SetThenGet` | HTTPRewrite/PancakeHTTPRewriteVM.c:95-150 | after a SET on a direct variable, reading it gives the literal back (same length and bytes for strings), and other fields read as before |
| `RewriteVMProperties.IsNotEqualNegatesIsEqual` | HTTPRewrite/PancakeHTTPRewriteVM.c:215-276 | IS_NOT_EQUAL is IS_EQUAL with continue and STOP_EXECUTION swapped, and both are FATAL on the same read failure |
| `RewriteVMProperties.CallOutcomes` | HTTPRewrite/PancakeHTTPRewriteVM.c:278-291 | a one-CALL ruleset returns 1 with no change for callback results 1 and 0, returns -1 with no 500 for -1, and returns -1 and raises 500 for anything else |
| `RewriteVMProperties.ResultOneIsAmbiguous` | HTTPRewrite/PancakeHTTPRewriteVM.c:75-87 | a completed run and a run stopped by a failed condition both return 1 |
| `RewriteVMProperties.SetTestActivate` | HTTPRewrite/PancakeHTTPRewriteVM.c:95-301 | SET_INT x 5; IS_EQUAL_INT x 5; ACTIVATE_SCOPE s on a direct x returns 1, leaves x = 5 and the scope group exactly [s] |
| `RewriteVMProperties.FailedConditionSkipsScope` | HTTPRewrite/PancakeHTTPRewriteVM.c:192-213 | a string comparison that fails returns 1 after one opcode, and the ACTIVATE_SCOPE after it does not run |
| `RewriteVMProperties.GetFailureIsFatal` | HTTPRewrite/PancakeHTTPRewriteVM.c:152-213 | a failing callback getter in a leading IS_EQUAL makes the run return -1 and raise 500, whatever follows |
| `RewriteVMProperties.DisjointSetsCommute` | HTTPRewrite/PancakeHTTPRewriteVM.c:95-150 | two SETs on different direct variables can be swapped without changing the outcome |
| `RewriteVMProperties.DependentOpcodesDoNotCommute` | HTTPRewrite/PancakeHTTPRewriteVM.c:172-190 | SET_INT x 5 then IS_EQUAL_INT x 5 completes, but in the other order the run stops before the SET, so the final requests differ |
| `DebugLedger.Assert` | PancakeDebug.c:15-42 | the assertion passes exactly when its condition holds, and otherwise ends the run with the condition text, file and line |
| `DebugLedger.Allocate` | PancakeDebug.c:44-61 | fails with "Out of memory" exactly when malloc returns NULL; otherwise it returns the new block and adds exactly one record for it with the requested size, file and line, leaving every other record as it was |
| `DebugLedger.Free` | PancakeDebug.c:91-102 | succeeds exactly for a recorded pointer; NULL and unrecorded pointers fail their own assertions; on success exactly that record is removed and no other record changes |
| `DebugLedger.Reallocate` | PancakeDebug.c:63-89 | on NULL it acts as Allocate; with size 0 it acts as Free and returns NULL; an unrecorded pointer fails the assertion; otherwise (recorded pointer, non-zero size) it succeeds exactly when realloc returns non-NULL, and the record moves to the new address with the new size and its original file and line |
| `DebugLedger.DuplicateString` | PancakeDebug.c:104-124 | a NULL string fails the assertion; a NULL strdup result fails with "Out of memory"; otherwise the copy holds the string up to and including its NUL, and the ledger records strlen + 1 bytes |
| `DebugLedger.DuplicateStringLength` | PancakeDebug.c:126-146 | accepts a terminated string or a buffer of at least `length` bytes; the copy is the bytes before the first NUL among the first `length`, then a NUL, and for a terminated string it is the first min(strlen, `length`) bytes; the ledger records `length + 1` |
| `Bytes.StrNDup` | PancakeDebug.c:132 | strndup's copy ends in a NUL after at most `length` bytes, which are a NUL-free prefix of the input; it stops short of `length` only at a NUL of the input; on a terminated string it is the first min(strlen, `length`) bytes plus NUL |
| `Bytes.StrNLen` | PancakeDebug.c:132 | the count of bytes strndup copies: at most `length`, none of them NUL, and stopping short only at a NUL |
| `Bytes.StrNLenOfTerminated` | PancakeDebug.c:132 | on a terminated string, that count is strlen capped at `length` |
| `DebugLedger.DumpHeap` | PancakeDebug.c:148-160 | the printed total is the sum of all recorded sizes, and it is printed only when that sum is non-zero |
| `DebugLedger.FreeUndoesAllocate` | PancakeDebug.c:91-102 | freeing a block just allocated restores the ledger exactly |
| `DebugLedger.TotalTracksAllocateAndFree` | PancakeDebug.c:148-160 | the heap total rises by the requested size on allocation and falls by the recorded size on free |
| `DebugLedger.TotalTracksReallocate` | PancakeDebug.c:76-88 | a successful resize replaces the old size with the new one in the heap total and keeps the origin file and line |
| `DebugLedger.DuplicateLengthRecordsRequestedLength` | PancakeDebug.c:126-146 | the recorded size is never less than the bytes copied, and equals them exactly when none of the first `length` bytes is a NUL (for a terminated string: when `length` does not exceed its strlen) |
| `DebugLedger.DuplicateIsBoundedDuplicateAtStrLen` | PancakeDebug.c:104-146 | duplicating a terminated string gives the same copy, block and record as the length-bounded duplicate with `length` equal to its strlen |
| `Bytes.MemChr` | HTTPDeflate/PancakeHTTPDeflate.c:80 | finds the first occurrence of the byte, with no earlier occurrence, or reports that there is none |
| `DeflateToken.DeflateNameParts` | HTTPDeflate/PancakeHTTPDeflate.c:29-32 | the encoding name "deflate" has 7 bytes and is 'd' followed by the 6 bytes compared by memcmp |
| `DeflateToken.TokenCheckAsWritten` | HTTPDeflate/PancakeHTTPDeflate.c:79-82 | when the check as written accepts, the read buffer holds "deflate" at the first 'd' of the header value, possibly ending one byte past the value; it reads past the read buffer exactly when the first 'd' is six bytes before the end of the value and the value ends the buffer; at that edge inside the buffer its answer is whether the six bytes from five before the end of the value to one past it are "eflate" |
| `DeflateToken.TokenCheckFirstD` | HTTPDeflate/PancakeHTTPDeflate.c:80-82 | with the bound corrected, it accepts if and only if the first 'd' of the header value starts a complete "deflate" inside the value |
| `DeflateToken.OnlyFirstD` | HTTPDeflate/PancakeHTTPDeflate.c:80 | because memchr returns the first 'd', no later "deflate" can satisfy the first-'d' check: the only candidate position is the one memchr returns |
| `DeflateToken.ContainsDeflate` | HTTPDeflate/PancakeHTTPDeflate.c:75-82 | accepts if and only if "deflate" occurs somewhere in the header value |
| `DeflateToken.AsWrittenAgreesAwayFromEdge` | HTTPDeflate/PancakeHTTPDeflate.c:80-82 | unless the first 'd' is exactly six bytes before the end of the value, the check as written reads only the value and agrees with the corrected first-'d' check |
| `DeflateToken.AsWrittenCases` | HTTPDeflate/PancakeHTTPDeflate.c:80-82 | the check as written in all cases: off the edge it is the first-'d' check on the value; it reads past the read buffer exactly at the edge when the value ends the buffer; at the edge inside the buffer it compares the six bytes straddling the value's end with "eflate" |
| `DeflateToken.FirstDImpliesContains` | HTTPDeflate/PancakeHTTPDeflate.c:80-82 | whatever the first-'d' check accepts contains "deflate" |
| `DeflateToken.AsWrittenAcceptsTruncatedToken` | HTTPDeflate/PancakeHTTPDeflate.c:81-82 | the header value "deflat" followed in the buffer by 'e' passes the check as written, though it does not name deflate |
| `DeflateToken.AsWrittenReadsPastBuffer` | HTTPDeflate/PancakeHTTPDeflate.c:81-82 | when "deflat" ends the read buffer, memcmp reads beyond the buffer |
| `DeflateToken.IdentityThenDeflate` | HTTPDeflate/PancakeHTTPDeflate.c:80-82 | "identity, deflate" names deflate, but the first-'d' check refuses it |
| `HTTPDeflate.Initialize` | HTTPDeflate/PancakeHTTPDeflate.c:34-58 | returns 2 (defer) exactly when the HTTP module is not initialised; otherwise it returns 1 and registers the defaults level 0, windowBits -15 and memoryLevel 9 |
| `HTTPDeflate.Chunk` | HTTPDeflate/PancakeHTTPDeflate.c:65-107 | it returns 0 or 1; with an existing stream it returns 1 and skips negotiation; if the request does not qualify it returns 0 and changes nothing; a qualifying request aborts with "Out of memory" when malloc returns NULL, and otherwise returns 1 exactly when stream initialisation succeeds; a return of 0 always leaves request and ledger unchanged; engaging requires HTTP/1.1, a non-zero level, no content encoding and an Accept-Encoding naming deflate, and sets chunked transfer, Content-Encoding "deflate" (7 bytes), the end hook, and a stream recorded in the ledger |
| `HTTPDeflate.ChunkAsWritten` | HTTPDeflate/PancakeHTTPDeflate.c:65-107 | the chunk as written: an existing stream is reused with return 1; a failing first-'d' check on the read buffer returns 0 with nothing changed; an out-of-buffer read by that check is the only undefined outcome; when the as-written check accepts, a NULL malloc aborts, and otherwise the request points at the new stream whether or not initialisation succeeds: on failure it returns 0 with the ledger as before (the stream freed) and only `outputFilterData` changed, on success it returns 1 with the request engaged; with a successful initialisation and a token check that gives the corrected answer, the result equals `Chunk`'s |
| `HTTPDeflate.NegotiableAsWritten` | HTTPDeflate/PancakeHTTPDeflate.c:76-82 | the check reads past the read buffer exactly when the request is eligible (HTTP/1.1, non-zero level, no content encoding, non-empty Accept-Encoding), the value's first 'd' is six bytes before its end, and the value ends the buffer; whenever the first 'd' is not at that edge, the answer is eligibility and the first-'d' check on the header value; at the edge inside the buffer, an eligible request's answer is whether the six bytes straddling the value's end are "eflate" |
| `HTTPDeflate.AsWrittenRefusesIdentityThenDeflate` | HTTPDeflate/PancakeHTTPDeflate.c:80-82 | a client sending "identity, deflate" gets 0 with nothing changed from the filter as written, while `Chunk` engages |
| `HTTPDeflate.AsWrittenEngagesOnTruncatedToken` | HTTPDeflate/PancakeHTTPDeflate.c:81-82 | an Accept-Encoding value "deflat" followed in the read buffer by 'e' engages the filter as written, while `Chunk` returns 0 |
| `HTTPDeflate.AsWrittenAgreesWhenTokenCheckAgrees` | HTTPDeflate/PancakeHTTPDeflate.c:72-107 | when initialisation succeeds and the as-written token check gives the same answer as `ContainsDeflate`, the chunk as written equals the corrected chunk |
| `HTTPDeflate.ChunkKeepsStreamTracked` | HTTPDeflate/PancakeHTTPDeflate.c:83-99 | every chunk keeps the request's stream a live block of the allocation ledger |
| `HTTPDeflate.DefaultsNeverEngage` | HTTPDeflate/PancakeHTTPDeflate.c:50 | with the default level 0 the first chunk returns 0 and changes nothing |
| `HTTPDeflate.SecondChunkReusesStream` | HTTPDeflate/PancakeHTTPDeflate.c:104-107 | after a chunk engages the filter, the request no longer qualifies for negotiation, and the next chunk still returns 1 with nothing changed |
| `HTTPDeflate.AsWrittenLeavesFreedStream` | HTTPDeflate/PancakeHTTPDeflate.c:91-94 | whenever the as-written check accepts (including a truncated token), a failed initialisation returns 0 but leaves the request pointing at a freed block, and the next chunk uses it; the corrected `Chunk` leaves the request unchanged |

## Left out

- Compression and output: zlib's `deflateInit2`, `deflate` and `deflateEnd`, the output-length arithmetic, `PancakeHTTPSendChunk` and the body of `PancakeHTTPDeflateOnOutputEnd` (HTTPDeflate/PancakeHTTPDeflate.c:60-63, 109-129) are foreign code. Whether initialisation succeeds is a boolean parameter, and an engaged chunk's return of 1 is taken as given.
- Configuration registration (HTTPDeflate/PancakeHTTPDeflate.c:44-55) calls a configuration API that is not part of this model. Only the defaults and the return codes are kept.
- `HTTPDeflate.Initialize`: the zero-initialised configuration before registration is not represented; `None` stands for "not yet registered".
- `PancakeConfigurationActivateScope` (HTTPRewrite/PancakeHTTPRewriteVM.c:297) changes process-wide configuration state that is not part of this model. Only the append to the request's scope group is modelled. `PancakeHTTPException` is recorded as the `raised500` flag.
- `RewriteVM.CallHandler`, `RewriteVM.Step`: native callbacks are functions of the binding and the current request, so "CALL leaves the request unchanged" holds of the model only; in C the callback receives the socket and may change the request. A successful callback setter is recorded as an entry in `callbackWrites`. Any other effect a native callback has on the request is not modelled.
- The three variable-to-variable opcodes have NULL handlers, and dispatching one would call through a NULL pointer. Runnable rulesets exclude them instead of giving them invented behaviour.
- The debug opcode-name table (HTTPRewrite/PancakeHTTPRewriteVM.c:23-41) is left out.
- Operand casts such as `(UByte) (UNative) op2` and `(Int32) (UNative) op2` are not modelled. Operands are literals of their final type.
- `Byte` is plain `char`. Signals are a datatype whose codes assume a signed char.
- `RewriteVM.Matches`: a value whose variant differs from the literal's compares unequal, where C would compare the union's bytes. Direct fields never produce such a value in a well-typed ruleset (`RewriteVMProperties.RunPreservesFieldsTyped`). A callback getter can: the model does not constrain getters, and only under `RewriteVM.GettersTyped` are such comparisons excluded (`RewriteVMProperties.TypedReadsMatchLiteralVariant`).
- Direct variables are keyed by their binding, so two bindings never share a field. In C two variables whose `location.ptr` point at the same field alias; `RewriteVMProperties.DisjointSetsCommute` relies on the absence of such aliasing.
- In the ledger, `printf`, backtraces and `exit` become the `Abort` value. malloc/strdup internals and the uthash table are replaced by a map. The second malloc, for the record itself, is assumed to succeed.
- `DebugLedger.DumpHeap`: the per-block lines are not modelled. The total is an unbounded number, so wrap-around of the unsigned native total is not modelled.
- `DebugLedger.Allocate`, `DebugLedger.Reallocate`: the size is a `nat`, while the C parameter is a signed `Native` that malloc and realloc take as an unsigned `size_t`. Negative sizes, which would become huge requests, are not modelled.
- `DebugLedger.DuplicateStringLength`: negative lengths are not modelled (`length` is a `nat`). How a negative Int32 converts in `strndup` and in `length + 1` depends on the record's field types, declared in PancakeDebug.h, which is not part of this model.
- Accept-Encoding quality values (`deflate;q=0`) and case-insensitive codings are not handled by the code, and the model does not handle them either.
- Concurrent executions of a shared ruleset are not modelled. Rulesets are immutable values here, so nothing is shared.

## Findings

| source | as written | input that shows it | evidently intended | confidence | as-written member | corrected member |
|---|---|---|---|---|---|---|
| HTTPDeflate/PancakeHTTPDeflate.c:81 | the guard `end - d >= 6` counts the `'d'` itself, yet memcmp then reads the 6 bytes after it, so the last byte read can lie one past the header value | header value "deflat" followed in the read buffer by 'e' is accepted (`DeflateToken.AsWrittenAcceptsTruncatedToken`, and at chunk level `HTTPDeflate.AsWrittenEngagesOnTruncatedToken`); if "deflat" ends the buffer, the read leaves it (`DeflateToken.AsWrittenReadsPastBuffer`) | require 7 bytes from `d` to the end of the value | high, not executed | `DeflateToken.TokenCheckAsWritten` | `DeflateToken.TokenCheckFirstD` |
| HTTPDeflate/PancakeHTTPDeflate.c:80 | only the first `'d'` of Accept-Encoding is examined | "identity, deflate" is refused (`DeflateToken.IdentityThenDeflate`, and at chunk level `HTTPDeflate.AsWrittenRefusesIdentityThenDeflate`) | accept when "deflate" occurs anywhere in the value | medium, not executed | `DeflateToken.TokenCheckFirstD` | `DeflateToken.ContainsDeflate` |
| HTTPDeflate/PancakeHTTPDeflate.c:92 | when `deflateInit2` fails, the stream is freed but `outputFilterData` (set at line 83) keeps pointing at it | a qualifying HTTP/1.1 request whose stream initialisation fails; the next chunk skips negotiation and uses the freed stream (`HTTPDeflate.AsWrittenLeavesFreedStream`) | clear `outputFilterData` after freeing the stream | high, not executed | `HTTPDeflate.ChunkAsWritten` | `HTTPDeflate.Chunk` |

`HTTPDeflate.ChunkAsWritten` negotiates through `DeflateToken.TokenCheckAsWritten` on the read buffer, as the code does. `HTTPDeflate.Chunk` uses `DeflateToken.ContainsDeflate` on the header value, which fixes both token findings. `HTTPDeflate.ChunkKeepsStreamTracked` proves the corrected invariant: the request's stream is always a live block of the ledger.

=== FILE: bytes.dfy ===
/** Machine-level types shared by the model of the Pancake HTTP server core:
    fixed-width integers, byte strings, an optional value, and the one C
    library search routine (memchr/strlen) the modelled code depends on. */
module Bytes {

  /** C `unsigned char` (`UByte`). */
  newtype uint8 = x: int | 0 <= x < 0x100

  /** C `int` (`Int32`). */
  newtype int32 = x: int | -0x8000_0000 <= x < 0x8000_0000

  /** A byte slice with explicit length (the C `String` of value and length). */
  type bytes = seq<uint8>

  datatype Option<+T> = None | Some(value: T)

  /** The bytes of an ASCII text, for writing byte constants readably. */
  function Ascii(s: string): (r: bytes)
    requires forall i :: 0 <= i < |s| ==> s[i] as int < 0x100
    ensures |r| == |s|
    ensures forall i :: 0 <= i < |s| ==> r[i] as int == s[i] as int
  {
    seq(|s|, i requires 0 <= i < |s| => s[i] as int as uint8)
  }

  /** memchr: the index of the FIRST occurrence of `c` in `s`, if any. */
  function MemChr(s: bytes, c: uint8): (r: Option<nat>)
    ensures r.Some? ==> r.value < |s| && s[r.value] == c
    ensures r.Some? ==> forall j :: 0 <= j < r.value ==> s[j] != c
    ensures r.None? <==> forall j :: 0 <= j < |s| ==> s[j] != c
    decreases |s|
  {
    if |s| == 0 then None
    else if s[0] == c then Some(0)
    else match MemChr(s[1..], c)
      case None => None
      case Some(k) => Some(k + 1)
  }

  /** strlen of a NUL-terminated C string: the number of bytes before the first 0. */
  function StrLen(s: bytes): (n: nat)
    requires 0 in s
    ensures n < |s| && s[n] == 0
    ensures forall j :: 0 <= j < n ==> s[j] != 0
  {
    MemChr(s, 0).value
  }

  /** strnlen: the number of bytes before the first 0 among the first `n`
      bytes, or `n` when those hold no 0. Reading stops at the first 0, so
      a buffer shorter than `n` is fine as long as it is terminated. */
  function StrNLen(s: bytes, n: nat): (k: nat)
    requires n <= |s| || 0 in s
    ensures k <= n && k <= |s|
    ensures forall j :: 0 <= j < k ==> s[j] != 0
    ensures k < n ==> k < |s| && s[k] == 0
  {
    if n <= |s| then
      match MemChr(s[..n], 0)
      case None => n
      case Some(k) => k
    else StrLen(s)
  }

  /** On a terminated string, strnlen is strlen capped at `n`. */
  lemma StrNLenOfTerminated(s: bytes, n: nat)
    requires 0 in s
    ensures StrNLen(s, n) == Min(StrLen(s), n)
  {
    var k := StrNLen(s, n);
    var m := StrLen(s);
    assert k <= m;
    assert k < n ==> s[k] == 0;
  }

  /** strndup's copy: the bytes strnlen counts, then a NUL. */
  function StrNDup(s: bytes, n: nat): (t: bytes)
    requires n <= |s| || 0 in s
    ensures 1 <= |t| <= n + 1 && |t| - 1 <= |s|
    ensures t[|t| - 1] == 0
    ensures t[..|t| - 1] == s[..|t| - 1]
    ensures 0 !in t[..|t| - 1]
    ensures |t| <= n ==> s[|t| - 1] == 0
    ensures 0 in s ==> t == s[..Min(StrLen(s), n)] + [0]
  {
    var k := StrNLen(s, n);
    assert 0 in s ==> k == Min(StrLen(s), n) by {
      if 0 in s { StrNLenOfTerminated(s, n); }
    }
    var t := s[..k] + [0];
    assert t[..k] == s[..k];
    t
  }

  function Min(a: nat, b: nat): nat { if a <= b then a else b }
}

=== FILE: debug_ledger.dfy ===
/** The debug build's allocation ledger: every block handed out by the
    Pancake allocator is recorded with its size and the source position of
    the allocating call, keyed by the block's address. A failed assertion
    prints its condition and ends the process; here it is the `Abort`
    result. */
module DebugLedger {
  import opened Bytes

  /** Block addresses are abstract; 0 is the NULL pointer. */
  type Addr = nat
  const Null: Addr := 0

  /** One ledger entry: the size asked for and where the allocation was made. */
  datatype Record = Record(size: nat, file: string, line: int32)

  type Ledger = map<Addr, Record>

  /** NULL is never a recorded block. */
  predicate Valid(l: Ledger)
  {
    Null !in l
  }

  /** A result, or the assertion failure that ended the process. */
  datatype Checked<+T> = Ok(value: T) | Abort(message: string, file: string, line: int32)
  {
    predicate IsFailure() { Abort? }

    function PropagateFailure<U>(): Checked<U>
      requires Abort?
    {
      Abort(message, file, line)
    }

    function Extract(): T
      requires Ok?
    {
      value
    }
  }

  /** The debug assertion: nothing happens when `result` holds; otherwise
      `condition` is reported for `file`:`line` and the process exits. */
  function Assert(result: bool, condition: string, file: string, line: int32): (r: Checked<()>)
    ensures r.Ok? <==> result
    ensures !result ==> r == Abort(condition, file, line)
  {
    if result then Ok(()) else Abort(condition, file, line)
  }

  /** A block handed to the caller together with the ledger afterwards. */
  datatype Block = Block(ledger: Ledger, ptr: Addr)

  /** A duplicated string: the ledger, the new block, and the bytes it holds
      (terminating NUL included). */
  datatype Copy = Copy(ledger: Ledger, ptr: Addr, text: bytes)

  /** The ledger with exactly one record added for `p`. */
  predicate AddsOne(l: Ledger, l': Ledger, p: Addr, rec: Record)
  {
    && l'.Keys == l.Keys + {p}
    && p in l' && l'[p] == rec
    && forall a :: a in l && a != p ==> l'[a] == l[a]
  }

  /* ---------------------------------------------------------------------
     Operations. `got` is what malloc/realloc/strdup returned: NULL when
     out of memory, otherwise a block the ledger does not hold.
     --------------------------------------------------------------------- */

  /** _PancakeAllocate. */
  function Allocate(l: Ledger, size: nat, file: string, line: int32, got: Addr): (r: Checked<Block>)
    requires Valid(l) && got !in l
    ensures r.Ok? <==> got != Null
    ensures r.Abort? ==> r.message == "Out of memory"
    ensures r.Ok? ==> r.value.ptr == got && Valid(r.value.ledger)
    ensures r.Ok? ==> AddsOne(l, r.value.ledger, got, Record(size, file, line))
  {
    var _ :- Assert(got != Null, "Out of memory", file, line);
    Ok(Block(l[got := Record(size, file, line)], got))
  }

  /** _PancakeFree. */
  function Free(l: Ledger, p: Addr, file: string, line: int32): (r: Checked<Ledger>)
    requires Valid(l)
    ensures r.Ok? <==> p in l
    ensures p == Null ==> r == Abort("Trying to free NULL pointer", file, line)
    ensures p != Null && p !in l ==> r == Abort("Trying to free invalid pointer", file, line)
    ensures r.Ok? ==> r.value.Keys == l.Keys - {p} && Valid(r.value)
    ensures r.Ok? ==> forall a :: a in r.value ==> r.value[a] == l[a]
  {
    var _ :- Assert(p != Null, "Trying to free NULL pointer", file, line);
    var _ :- Assert(p in l, "Trying to free invalid pointer", file, line);
    Ok(l - {p})
  }

  /** _PancakeReallocate. realloc either moves the block to a new address
      or keeps it where it is. */
  function Reallocate(l: Ledger, p: Addr, size: nat, file: string, line: int32, got: Addr): (r: Checked<Block>)
    requires Valid(l)
    requires got !in l || (got == p && p in l)
    ensures p == Null ==> r == Allocate(l, size, file, line, got)
    ensures p != Null && size == 0 ==>
              r == (match Free(l, p, file, line)
                    case Ok(l') => Ok(Block(l', Null))
                    case Abort(m, f, n) => Abort(m, f, n))
    ensures p != Null && size != 0 && p !in l ==>
              r == Abort("Trying to reallocate invalid pointer", file, line)
    ensures p != Null && size != 0 && p in l && got == Null ==> r == Abort("Out of memory", file, line)
    ensures p != Null && size != 0 ==> (r.Ok? <==> p in l && got != Null)
    ensures p != Null && size != 0 && r.Ok? ==>
              && r.value.ptr == got
              && AddsOne(l - {p}, r.value.ledger, got, Record(size, l[p].file, l[p].line))
    ensures r.Ok? ==> Valid(r.value.ledger)
  {
    if p == Null then Allocate(l, size, file, line, got)
    else if size == 0 then
      var l' :- Free(l, p, file, line);
      Ok(Block(l', Null))
    else
      var _ :- Assert(p in l, "Trying to reallocate invalid pointer", file, line);
      var _ :- Assert(got != Null, "Out of memory", file, line);
      var rec := l[p];
      Ok(Block((l - {p})[got := Record(size, rec.file, rec.line)], got))
  }

  /** _PancakeDuplicateString. `s` is the memory at the string pointer
      (None for NULL), holding a NUL terminator somewhere. */
  function DuplicateString(l: Ledger, s: Option<bytes>, file: string, line: int32, got: Addr): (r: Checked<Copy>)
    requires Valid(l) && got !in l
    requires s.Some? ==> 0 in s.value
    ensures s.None? ==> r == Abort("Trying to duplicate NULL pointer", file, line)
    ensures s.Some? ==> (r.Ok? <==> got != Null)
    ensures s.Some? && got == Null ==> r == Abort("Out of memory", file, line)
    ensures r.Ok? ==>
              && r.value.ptr == got
              && r.value.text == s.value[..StrLen(s.value) + 1]
              && AddsOne(l, r.value.ledger, got, Record(|r.value.text|, file, line))
              && Valid(r.value.ledger)
  {
    var _ :- Assert(s.Some?, "Trying to duplicate NULL pointer", file, line);
    var _ :- Assert(got != Null, "Out of memory", file, line);
    var str := s.value;
    var n := StrLen(str);
    Ok(Copy(l[got := Record(n + 1, file, line)], got, str[..n + 1]))
  }

  /** _PancakeDuplicateStringLength: strndup copies the bytes before the
      first NUL among the first `length` (so the buffer need only be
      terminated or at least `length` long) and adds a NUL, but the ledger
      records `length + 1` whatever was copied. */
  function DuplicateStringLength(l: Ledger, s: Option<bytes>, length: nat, file: string, line: int32, got: Addr): (r: Checked<Copy>)
    requires Valid(l) && got !in l
    requires s.Some? ==> length <= |s.value| || 0 in s.value
    ensures s.None? ==> r == Abort("Trying to duplicate NULL pointer", file, line)
    ensures s.Some? ==> (r.Ok? <==> got != Null)
    ensures r.Abort? && s.Some? ==> r.message == "Out of memory"
    ensures r.Ok? ==>
              && s.Some? && r.value.ptr == got
              && 1 <= |r.value.text| <= length + 1 && |r.value.text| - 1 <= |s.value|
              && r.value.text[|r.value.text| - 1] == 0
              && r.value.text[..|r.value.text| - 1] == s.value[..|r.value.text| - 1]
              && 0 !in r.value.text[..|r.value.text| - 1]
              && (|r.value.text| <= length ==> s.value[|r.value.text| - 1] == 0)
              && AddsOne(l, r.value.ledger, got, Record(length + 1, file, line))
              && Valid(r.value.ledger)
    ensures r.Ok? && 0 in s.value ==> r.value.text == s.value[..Min(StrLen(s.value), length)] + [0]
  {
    var _ :- Assert(s.Some?, "Trying to duplicate NULL pointer", file, line);
    var _ :- Assert(got != Null, "Out of memory", file, line);
    var text := StrNDup(s.value, length);
    Ok(Copy(l[got := Record(length + 1, file, line)], got, text))
  }

  /* ---------------------------------------------------------------------
     Heap total
     --------------------------------------------------------------------- */

  /** The sum of the recorded sizes of the blocks in `keys`. */
  ghost function SizeSum(l: Ledger, keys: set<Addr>): nat
    requires keys <= l.Keys
    decreases keys
  {
    if keys == {} then 0
    else
      var a :| a in keys;
      l[a].size + SizeSum(l, keys - {a})
  }

  ghost function HeapTotal(l: Ledger): nat
  {
    SizeSum(l, l.Keys)
  }

  /** The sum does not depend on which block is taken out first. */
  lemma {:induction false} SizeSumRemove(l: Ledger, keys: set<Addr>, a: Addr)
    requires keys <= l.Keys && a in keys
    ensures SizeSum(l, keys) == l[a].size + SizeSum(l, keys - {a})
    decreases keys
  {
    var b :| b in keys && SizeSum(l, keys) == l[b].size + SizeSum(l, keys - {b});
    if b != a {
      SizeSumRemove(l, keys - {b}, a);
      SizeSumRemove(l, keys - {a}, b);
      assert keys - {b} - {a} == keys - {a} - {b};
    }
  }

  /** The sum over `keys` only looks at the records of `keys`. */
  lemma {:induction false} SizeSumAgree(l: Ledger, l': Ledger, keys: set<Addr>)
    requires keys <= l.Keys && keys <= l'.Keys
    requires forall a :: a in keys ==> l[a].size == l'[a].size
    ensures SizeSum(l, keys) == SizeSum(l', keys)
    decreases keys
  {
    if keys != {} {
      var a :| a in keys;
      SizeSumRemove(l, keys, a);
      SizeSumRemove(l', keys, a);
      SizeSumAgree(l, l', keys - {a});
    }
  }

  /** Adding a record adds its size to the heap total. */
  lemma TotalAfterAdd(l: Ledger, l': Ledger, p: Addr, rec: Record)
    requires p !in l && AddsOne(l, l', p, rec)
    ensures HeapTotal(l') == HeapTotal(l) + rec.size
  {
    SizeSumRemove(l', l'.Keys, p);
    assert l'.Keys - {p} == l.Keys;
    SizeSumAgree(l, l', l.Keys);
  }

  /** Removing a record takes its size off the heap total. */
  lemma TotalAfterRemove(l: Ledger, p: Addr)
    requires p in l
    ensures HeapTotal(l - {p}) == HeapTotal(l) - l[p].size
  {
    SizeSumRemove(l, l.Keys, p);
    assert (l - {p}).Keys == l.Keys - {p};
    SizeSumAgree(l, l - {p}, l.Keys - {p});
  }

  /** PancakeDumpHeap: the total it prints is the sum of the recorded
      sizes, and it prints it only when that sum is not zero. */
  method DumpHeap(l: Ledger) returns (printedTotal: Option<nat>)
    ensures printedTotal.Some? <==> HeapTotal(l) != 0
    ensures printedTotal.Some? ==> printedTotal.value == HeapTotal(l)
  {
    var total := 0;
    var rest := l.Keys;
    while rest != {}
      invariant rest <= l.Keys
      invariant total + SizeSum(l, rest) == HeapTotal(l)
      decreases rest
    {
      var a :| a in rest;
      SizeSumRemove(l, rest, a);
      total := total + l[a].size;
      rest := rest - {a};
    }
    printedTotal := if total != 0 then Some(total) else None;
  }

  /* ---------------------------------------------------------------------
     How the operations relate
     --------------------------------------------------------------------- */

  /** Freeing the block just allocated gives back the ledger as it was. */
  lemma FreeUndoesAllocate(l: Ledger, size: nat, file: string, line: int32, got: Addr, file': string, line': int32)
    requires Valid(l) && got !in l && got != Null
    ensures Allocate(l, size, file, line, got).Ok?
    ensures Free(Allocate(l, size, file, line, got).value.ledger, got, file', line') == Ok(l)
  {
    var l' := Allocate(l, size, file, line, got).value.ledger;
    assert l' - {got} == l;
  }

  /** Allocation raises the heap total by the size asked for, and freeing
      lowers it by the recorded size. */
  lemma TotalTracksAllocateAndFree(l: Ledger, size: nat, file: string, line: int32, got: Addr, p: Addr)
    requires Valid(l) && got !in l
    ensures Allocate(l, size, file, line, got).Ok? ==>
              HeapTotal(Allocate(l, size, file, line, got).value.ledger) == HeapTotal(l) + size
    ensures Free(l, p, file, line).Ok? ==>
              HeapTotal(Free(l, p, file, line).value) == HeapTotal(l) - l[p].size
  {
    if got != Null {
      TotalAfterAdd(l, Allocate(l, size, file, line, got).value.ledger, got, Record(size, file, line));
    }
    if p in l {
      TotalAfterRemove(l, p);
    }
  }

  /** A successful resize replaces the old size by the new one in the heap
      total and keeps the block's origin. */
  lemma TotalTracksReallocate(l: Ledger, p: Addr, size: nat, file: string, line: int32, got: Addr)
    requires Valid(l) && p in l && size != 0
    requires got !in l || got == p
    ensures var r := Reallocate(l, p, size, file, line, got);
            r.Ok? ==> && HeapTotal(r.value.ledger) == HeapTotal(l) - l[p].size + size
                      && r.value.ledger[got].file == l[p].file
                      && r.value.ledger[got].line == l[p].line
  {
    var r := Reallocate(l, p, size, file, line, got);
    if r.Ok? {
      TotalAfterRemove(l, p);
      TotalAfterAdd(l - {p}, r.value.ledger, got, Record(size, l[p].file, l[p].line));
    }
  }

  /** The length-bounded duplicate records `length + 1` bytes even when it
      copies fewer: the record is exact precisely when none of the first
      `length` bytes is a NUL, and overstates the block otherwise. For a
      terminated string that means `length` does not exceed its strlen. */
  lemma DuplicateLengthRecordsRequestedLength(l: Ledger, s: bytes, length: nat, file: string, line: int32, got: Addr)
    requires Valid(l) && got !in l && got != Null
    requires length <= |s| || 0 in s
    ensures var r := DuplicateStringLength(l, Some(s), length, file, line, got);
            && r.Ok?
            && r.value.ledger[got].size >= |r.value.text|
            && (r.value.ledger[got].size == |r.value.text| <==> length <= |s| && 0 !in s[..length])
            && (0 in s ==> (r.value.ledger[got].size == |r.value.text| <==> length <= StrLen(s)))
  {
    var r := DuplicateStringLength(l, Some(s), length, file, line, got);
    var k := |r.value.text| - 1;
    if k == length {
      assert length <= |s|;
      assert 0 !in s[..length] by {
        assert r.value.text[..k] == s[..length];
      }
    } else {
      assert s[k] == 0;
      assert k < length;
      if length <= |s| {
        assert s[..length][k] == 0;
      }
    }
    if 0 in s {
      var m := StrLen(s);
      if length <= m {
        assert length <= |s|;
        assert 0 !in s[..length] by {
          forall j | 0 <= j < length ensures s[..length][j] != 0 { }
        }
      } else {
        if length <= |s| {
          assert s[..length][m] == 0;
        }
      }
    }
  }

  /** strdup is strndup at the string's own length: both copy the string
      with its NUL and record strlen + 1. */
  lemma DuplicateIsBoundedDuplicateAtStrLen(l: Ledger, s: bytes, file: string, line: int32, got: Addr)
    requires Valid(l) && got !in l && 0 in s
    ensures DuplicateString(l, Some(s), file, line, got)
            == DuplicateStringLength(l, Some(s), StrLen(s), file, line, got)
  {
    var n := StrLen(s);
    if got != Null {
      assert s[..n + 1] == s[..Min(n, n)] + [0];
    }
  }
}

=== FILE: deflate_token.dfy ===
/** The test the deflate output filter applies to the Accept-Encoding header
    value before it compresses a response: memchr for the first 'd', a
    length guard, and a memcmp of the following bytes against "eflate".
    The check as written and two corrected checks are defined here. */
module DeflateToken {
  import opened Bytes

  const LowerD: uint8 := 0x64
  const Eflate: bytes := Ascii("eflate")
  const DeflateName: bytes := Ascii("deflate")

  lemma DeflateNameParts()
    ensures |Eflate| == 6 && |DeflateName| == 7
    ensures DeflateName == [LowerD] + Eflate
  {
  }

  /** "deflate" starts at index `i` of `s`. */
  predicate DeflateAt(s: bytes, i: int)
  {
    0 <= i && i + |DeflateName| <= |s| && s[i..i + |DeflateName|] == DeflateName
  }

  /** No 'd' occurs in `s` before index `i`. */
  predicate NoDBefore(s: bytes, i: int)
  {
    forall j :: 0 <= j < i && j < |s| ==> s[j] != LowerD
  }

  /** Every occurrence of "deflate" begins with 'd'. */
  lemma DeflateStartsWithD(s: bytes)
    ensures forall i :: DeflateAt(s, i) ==> s[i] == LowerD
  {
    DeflateNameParts();
    forall i | DeflateAt(s, i) ensures s[i] == LowerD {
      assert s[i..i + |DeflateName|][0] == s[i];
    }
  }

  /* ---------------------------------------------------------------------
     As written: the header value is buf[off..off + len] inside the read
     buffer, and the guard counts the 'd' itself among the six bytes that
     must follow it.
     --------------------------------------------------------------------- */

  /** The token check of the first-chunk condition. None means memcmp
      reads beyond the end of the read buffer. */
  function TokenCheckAsWritten(buf: bytes, off: nat, len: nat): (r: Option<bool>)
    requires off + len <= |buf|
    ensures r == Some(true) ==>
              && MemChr(buf[off..off + len], LowerD).Some?
              && var d := off + MemChr(buf[off..off + len], LowerD).value;
                 DeflateAt(buf, d) && d + |DeflateName| <= off + len + 1
    ensures r.None? <==>
              && MemChr(buf[off..off + len], LowerD).Some?
              && len - MemChr(buf[off..off + len], LowerD).value == |Eflate|
              && off + len == |buf|
    ensures MemChr(buf[off..off + len], LowerD).Some?
            && len - MemChr(buf[off..off + len], LowerD).value == |Eflate|
            && off + len < |buf| ==>
              r == Some(buf[off + len - 5..off + len + 1] == Eflate)
  {
    match MemChr(buf[off..off + len], LowerD)
    case None => Some(false)
    case Some(i) =>
      var d := off + i;
      if off + len - d < |Eflate| then Some(false)
      else if d + 1 + |Eflate| > |buf| then None
      else
        DeflateNameParts();
        assert buf[d..d + |DeflateName|] == [buf[d]] + buf[d + 1..d + 1 + |Eflate|];
        Some(buf[d + 1..d + 1 + |Eflate|] == Eflate)
  }

  /* ---------------------------------------------------------------------
     Corrected bound: still only the first 'd', but all seven bytes of
     "deflate" lie inside the header value.
     --------------------------------------------------------------------- */

  /** A 'd' starts "deflate" exactly when the six bytes after it are "eflate". */
  lemma DeflateAfterD(s: bytes, i: nat)
    requires i < |s| && s[i] == LowerD
    ensures DeflateAt(s, i) <==>
              |s| - i >= |DeflateName| && s[i + 1..i + |DeflateName|] == Eflate
  {
    DeflateNameParts();
    if |s| - i >= |DeflateName| {
      assert s[i..i + |DeflateName|] == [s[i]] + s[i + 1..i + |DeflateName|];
    }
  }

  /** Only the first 'd' can start a "deflate" with no 'd' before it. */
  lemma OnlyFirstD(s: bytes, i: nat)
    requires MemChr(s, LowerD) == Some(i)
    ensures forall k :: DeflateAt(s, k) && NoDBefore(s, k) ==> k == i
    ensures DeflateAt(s, i) ==> NoDBefore(s, i)
  {
    DeflateStartsWithD(s);
    forall k | DeflateAt(s, k) && NoDBefore(s, k) ensures k == i {
      assert s[k] == LowerD && s[i] == LowerD;
      assert k >= i;
      assert k <= i;
    }
  }

  /** The first 'd' of `s` begins "deflate", entirely within `s`. */
  function TokenCheckFirstD(s: bytes): (r: bool)
    ensures r <==> exists i :: DeflateAt(s, i) && NoDBefore(s, i)
  {
    match MemChr(s, LowerD)
    case None =>
      DeflateStartsWithD(s);
      false
    case Some(i) =>
      DeflateAfterD(s, i);
      OnlyFirstD(s, i);
      |s| - i >= |DeflateName| && s[i + 1..i + |DeflateName|] == Eflate
  }

  /* ---------------------------------------------------------------------
     Corrected search: "deflate" anywhere in the header value.
     --------------------------------------------------------------------- */

  lemma DeflateAtShift(s: bytes, i: nat)
    requires |s| > 0
    ensures DeflateAt(s, i + 1) <==> DeflateAt(s[1..], i)
  {
    var n := |DeflateName|;
    if 0 <= i && i + 1 + n <= |s| {
      var x := s[i + 1..i + 1 + n];
      var y := s[1..][i..i + n];
      forall k | 0 <= k < n ensures x[k] == y[k] { }
      assert x == y;
    }
  }

  lemma SliceOfSlice(buf: bytes, off: nat, len: nat, a: nat, b: nat)
    requires off + len <= |buf| && a <= b <= len
    ensures buf[off..off + len][a..b] == buf[off + a..off + b]
  {
    var x := buf[off..off + len][a..b];
    var y := buf[off + a..off + b];
    forall k | 0 <= k < b - a ensures x[k] == y[k] { }
    assert x == y;
  }

  /** The header value contains "deflate" at some position. */
  function ContainsDeflate(s: bytes): (r: bool)
    ensures r <==> exists i :: DeflateAt(s, i)
    decreases |s|
  {
    if |s| < |DeflateName| then false
    else if s[..|DeflateName|] == DeflateName then
      assert DeflateAt(s, 0);
      true
    else
      var rest := ContainsDeflate(s[1..]);
      assert rest ==> exists i :: DeflateAt(s, i) by {
        if rest {
          var i :| DeflateAt(s[1..], i);
          DeflateAtShift(s, i);
        }
      }
      assert (exists i :: DeflateAt(s, i)) ==> rest by {
        if exists i :: DeflateAt(s, i) {
          var i :| DeflateAt(s, i);
          assert i != 0;
          DeflateAtShift(s, i - 1);
        }
      }
      rest
  }

  /* ---------------------------------------------------------------------
     How the three checks relate
     --------------------------------------------------------------------- */

  /** Away from the edge case, the check as written reads only the header
      value and agrees with the corrected first-'d' check. */
  lemma AsWrittenAgreesAwayFromEdge(buf: bytes, off: nat, len: nat)
    requires off + len <= |buf|
    requires MemChr(buf[off..off + len], LowerD).Some? ==>
               len - MemChr(buf[off..off + len], LowerD).value != |Eflate|
    ensures TokenCheckAsWritten(buf, off, len) == Some(TokenCheckFirstD(buf[off..off + len]))
  {
    var s := buf[off..off + len];
    DeflateNameParts();
    match MemChr(s, LowerD)
    case None =>
    case Some(i) =>
      if len - i < |Eflate| {
        assert TokenCheckAsWritten(buf, off, len) == Some(false);
        assert !TokenCheckFirstD(s);
      } else {
        assert len - i >= |DeflateName|;
        SliceOfSlice(buf, off, len, i + 1, i + |DeflateName|);
        assert TokenCheckAsWritten(buf, off, len)
               == Some(buf[off + i + 1..off + i + 1 + |Eflate|] == Eflate);
        assert TokenCheckFirstD(s) == (s[i + 1..i + |DeflateName|] == Eflate);
      }
  }

  /** Whatever the first-'d' check accepts contains "deflate". */
  lemma FirstDImpliesContains(s: bytes)
    ensures TokenCheckFirstD(s) ==> ContainsDeflate(s)
  {
  }

  /** The edge of the off-by-one: the first 'd' of the value is exactly six
      bytes before its end, so memcmp's last byte lies just past the value. */
  predicate AtEdge(s: bytes)
  {
    MemChr(s, LowerD).Some? && |s| - MemChr(s, LowerD).value == |Eflate|
  }

  /** The check as written, case by case: off the edge it is the first-'d'
      check on the value; at the edge it reads past the buffer when the
      value ends it, and otherwise compares the bytes that straddle the
      value's end. */
  lemma AsWrittenCases(buf: bytes, off: nat, len: nat)
    requires off + len <= |buf|
    ensures !AtEdge(buf[off..off + len]) ==>
              TokenCheckAsWritten(buf, off, len) == Some(TokenCheckFirstD(buf[off..off + len]))
    ensures TokenCheckAsWritten(buf, off, len).None? <==> AtEdge(buf[off..off + len]) && off + len == |buf|
    ensures AtEdge(buf[off..off + len]) && off + len < |buf| ==>
              TokenCheckAsWritten(buf, off, len) == Some(buf[off + len - 5..off + len + 1] == Eflate)
  {
    DeflateNameParts();
    if !AtEdge(buf[off..off + len]) {
      AsWrittenAgreesAwayFromEdge(buf, off, len);
    }
  }

  /** The header value "deflat" followed in the read buffer by 'e' passes
      the check as written, though the value does not name deflate. */
  lemma AsWrittenAcceptsTruncatedToken()
    ensures TokenCheckAsWritten(DeflateName, 0, 6) == Some(true)
    ensures !TokenCheckFirstD(DeflateName[..6])
    ensures !ContainsDeflate(DeflateName[..6])
  {
    DeflateNameParts();
    assert DeflateName[0..6] == DeflateName[..6];
    assert MemChr(DeflateName[..6], LowerD) == Some(0);
    assert DeflateName[1..7] == Eflate;
  }

  /** When "deflat" ends the read buffer, the check as written reads one
      byte past it. */
  lemma AsWrittenReadsPastBuffer()
    ensures TokenCheckAsWritten(DeflateName[..6], 0, 6).None?
  {
    DeflateNameParts();
    assert DeflateName[..6][0..6] == DeflateName[..6];
    assert MemChr(DeflateName[..6], LowerD) == Some(0);
  }

  /** "identity, deflate" names deflate, but its first 'd' (in
      "identity") is followed by "entity", so the first-'d' check refuses
      it. */
  lemma IdentityThenDeflate()
    ensures var s := Ascii("identity, ") + DeflateName;
            && |s| == 17 && MemChr(s, LowerD) == Some(1)
            && !TokenCheckFirstD(s) && ContainsDeflate(s)
  {
    DeflateNameParts();
    var p := Ascii("identity, ");
    var s := p + DeflateName;
    assert s[0] == p[0] && p[0] as int == 'i' as int;
    assert s[1] == p[1] && p[1] as int == 'd' as int;
    assert MemChr(s[1..], LowerD) == Some(0);
    assert MemChr(s, LowerD) == Some(1);
    assert s[3] == p[3] && p[3] as int == 'n' as int;
    assert s[2..8][1] == s[3] && Eflate[1] as int == 'f' as int;
    assert s[10..17] == DeflateName;
    assert DeflateAt(s, 10);
  }
}

=== FILE: http_deflate.dfy ===
/** The deflate output filter: on the first chunk of a response it decides
    whether to compress, and if so allocates a compression stream and marks
    the response as deflate-encoded with chunked transfer. Later chunks reuse
    the stream. Compression and sending are not modelled; stream
    initialisation is given as a boolean outcome. */
module HTTPDeflate {
  import opened Bytes
  import opened DebugLedger
  import DeflateToken

  datatype HttpVersion = Http10 | Http11

  /** The request's end-of-output hook. */
  datatype OutputEndHook = NoHook | OtherHook(id: nat) | DeflateOnOutputEnd

  datatype DeflateConfig = DeflateConfig(level: int32, windowBits: int32, memoryLevel: int32)

  /** The defaults registered for the Deflate configuration group. */
  const DefaultConfig := DeflateConfig(0, -15, 9)

  /** The Content-Encoding value the filter installs. */
  const ContentEncodingDeflate: bytes := DeflateToken.DeflateName

  /** sizeof(z_stream) on an LP64 target with zlib 1.2. */
  const ZStreamSize: nat := 112

  const SourceFile := "HTTPDeflate/PancakeHTTPDeflate.c"
  const AllocateLine: int32 := 83
  const FreeLine: int32 := 92

  /** The parts of a request the filter reads and writes. The
      Accept-Encoding value is not a separate string: it is the
      `acceptLength` bytes at `acceptOffset` of the socket's read buffer. */
  datatype HttpRequest = HttpRequest(
    version: HttpVersion,
    readBuffer: bytes,
    acceptOffset: nat,
    acceptLength: nat,
    contentEncoding: Option<bytes>,
    chunkedTransfer: bool,
    onOutputEnd: OutputEndHook,
    outputFilterData: Option<Addr>)

  /** The filter's return value, the request and the allocation ledger afterwards. */
  datatype ChunkResult = ChunkResult(ret: uint8, req: HttpRequest, ledger: Ledger)

  /** The module initialiser: 2 defers until the HTTP module is
      initialised; 1 registers the filter and the configuration defaults. */
  function Initialize(httpInitialized: bool): (r: (uint8, Option<DeflateConfig>))
    ensures r.0 == 2 <==> !httpInitialized
    ensures r.0 == 1 <==> httpInitialized
    ensures r.1.Some? <==> httpInitialized
    ensures r.1.Some? ==> r.1.value == DeflateConfig(0, -15, 9)
  {
    if !httpInitialized then (2, None) else (1, Some(DefaultConfig))
  }

  /** The request parser leaves the Accept-Encoding value inside the read
      buffer (an absent header has length 0). */
  predicate HeaderInBuffer(req: HttpRequest)
  {
    req.acceptOffset + req.acceptLength <= |req.readBuffer|
  }

  function AcceptEncoding(req: HttpRequest): bytes
    requires HeaderInBuffer(req)
  {
    req.readBuffer[req.acceptOffset..req.acceptOffset + req.acceptLength]
  }

  /** The conditions on the request and configuration that come before the
      token check: HTTP/1.1, a non-zero level, no content encoding yet and
      a non-empty Accept-Encoding. */
  predicate Eligible(req: HttpRequest, config: DeflateConfig)
  {
    && req.version == Http11
    && config.level != 0
    && req.contentEncoding.None?
    && req.acceptLength != 0
  }

  /** The corrected first-chunk condition: eligible, and the Accept-Encoding
      value names deflate somewhere. */
  predicate Negotiable(req: HttpRequest, config: DeflateConfig)
    requires HeaderInBuffer(req)
  {
    Eligible(req, config) && DeflateToken.ContainsDeflate(AcceptEncoding(req))
  }

  /** The first-chunk condition as written: the conditions are evaluated
      left to right, and the token check is the memchr/guard/memcmp on the
      read buffer. None means memcmp reads beyond the read buffer. */
  function NegotiableAsWritten(req: HttpRequest, config: DeflateConfig): (r: Option<bool>)
    requires HeaderInBuffer(req)
    ensures r.None? <==>
              Eligible(req, config) && DeflateToken.AtEdge(AcceptEncoding(req))
              && req.acceptOffset + req.acceptLength == |req.readBuffer|
    ensures !DeflateToken.AtEdge(AcceptEncoding(req)) ==>
              r == Some(Eligible(req, config) && DeflateToken.TokenCheckFirstD(AcceptEncoding(req)))
    ensures Eligible(req, config) && DeflateToken.AtEdge(AcceptEncoding(req))
            && req.acceptOffset + req.acceptLength < |req.readBuffer| ==>
              r == Some(req.readBuffer[req.acceptOffset + req.acceptLength - 5..req.acceptOffset + req.acceptLength + 1]
                        == DeflateToken.Eflate)
  {
    DeflateToken.AsWrittenCases(req.readBuffer, req.acceptOffset, req.acceptLength);
    if !Eligible(req, config) then Some(false)
    else DeflateToken.TokenCheckAsWritten(req.readBuffer, req.acceptOffset, req.acceptLength)
  }

  /** The request once the filter has engaged with stream `p`. */
  function Engaged(req: HttpRequest, p: Addr): HttpRequest
  {
    req.(onOutputEnd := DeflateOnOutputEnd,
         chunkedTransfer := true,
         contentEncoding := Some(ContentEncodingDeflate),
         outputFilterData := Some(p))
  }

  /** The request's stream, if any, is a live block of the ledger. */
  predicate StreamTracked(req: HttpRequest, l: Ledger)
  {
    req.outputFilterData.Some? ==> req.outputFilterData.value in l
  }

  /** PancakeHTTPDeflateChunk up to the compression call. `got` is what the
      allocator's malloc returns, `initOk` whether deflateInit2 succeeds.
      On an initialisation failure the stream is freed and forgotten. */
  function Chunk(req: HttpRequest, config: DeflateConfig, l: Ledger, got: Addr, initOk: bool): (r: Checked<ChunkResult>)
    requires Valid(l) && got !in l && HeaderInBuffer(req)
    ensures req.outputFilterData.Some? ==> r == Ok(ChunkResult(1, req, l))
    ensures req.outputFilterData.None? && !Negotiable(req, config) ==> r == Ok(ChunkResult(0, req, l))
    ensures r.Abort? ==> r.message == "Out of memory" && got == Null
    ensures r.Ok? && r.value.ret == 0 ==> r.value.req == req && r.value.ledger == l
    ensures r.Ok? && req.outputFilterData.None? && r.value.ret == 1 ==>
              && Negotiable(req, config) && initOk
              && r.value.req.chunkedTransfer
              && r.value.req.contentEncoding == Some(ContentEncodingDeflate)
              && |r.value.req.contentEncoding.value| == 7
              && r.value.req.onOutputEnd == DeflateOnOutputEnd
              && r.value.req.outputFilterData == Some(got)
              && AddsOne(l, r.value.ledger, got, Record(ZStreamSize, SourceFile, AllocateLine))
    ensures r.Ok? ==> Valid(r.value.ledger)
    ensures r.Ok? ==> r.value.ret in {0, 1}
    ensures req.outputFilterData.None? && Negotiable(req, config) && got != Null ==>
              r.Ok? && (r.value.ret == 1 <==> initOk)
    ensures req.outputFilterData.None? && Negotiable(req, config) && got == Null ==>
              r == Abort("Out of memory", SourceFile, AllocateLine)
  {
    DeflateToken.DeflateNameParts();
    if req.outputFilterData.Some? then Ok(ChunkResult(1, req, l))
    else if !Negotiable(req, config) then Ok(ChunkResult(0, req, l))
    else
      var b :- Allocate(l, ZStreamSize, SourceFile, AllocateLine, got);
      if !initOk then
        assert Free(b.ledger, b.ptr, SourceFile, FreeLine).Ok?;
        var l' := Free(b.ledger, b.ptr, SourceFile, FreeLine).value;
        assert l' == l;
        Ok(ChunkResult(0, req, l'))
      else
        Ok(ChunkResult(1, Engaged(req, b.ptr), b.ledger))
  }

  /** PancakeHTTPDeflateChunk as written: the negotiation is the first-'d'
      check on the read buffer, and on an initialisation failure the stream
      is freed but the request keeps pointing at it. None means the check
      reads beyond the read buffer, which C leaves undefined. */
  function ChunkAsWritten(req: HttpRequest, config: DeflateConfig, l: Ledger, got: Addr, initOk: bool): (r: Option<Checked<ChunkResult>>)
    requires Valid(l) && got !in l && HeaderInBuffer(req)
    ensures req.outputFilterData.Some? ==> r == Some(Ok(ChunkResult(1, req, l)))
    ensures r.None? <==> req.outputFilterData.None? && NegotiableAsWritten(req, config).None?
    ensures req.outputFilterData.None? && NegotiableAsWritten(req, config) == Some(false) ==>
              r == Some(Ok(ChunkResult(0, req, l)))
    ensures initOk && NegotiableAsWritten(req, config) == Some(Negotiable(req, config)) ==>
              r == Some(Chunk(req, config, l, got, initOk))
    ensures req.outputFilterData.None? && NegotiableAsWritten(req, config) == Some(true) && got != Null ==>
              && r.Some? && r.value.Ok?
              && r.value.value.req.outputFilterData == Some(got)
              && (r.value.value.ret == 1 <==> initOk)
              && (!initOk ==> r.value.value.req == req.(outputFilterData := Some(got)) && r.value.value.ledger == l)
              && (initOk ==> r.value.value.req == Engaged(req, got))
    ensures req.outputFilterData.None? && NegotiableAsWritten(req, config) == Some(true) && got == Null ==>
              r == Some(Abort("Out of memory", SourceFile, AllocateLine))
  {
    if req.outputFilterData.Some? then Some(Ok(ChunkResult(1, req, l)))
    else
      match NegotiableAsWritten(req, config)
      case None => None
      case Some(false) => Some(Ok(ChunkResult(0, req, l)))
      case Some(true) =>
        match Allocate(l, ZStreamSize, SourceFile, AllocateLine, got)
        case Abort(m, f, n) => Some(Abort(m, f, n))
        case Ok(b) =>
          var req' := req.(outputFilterData := Some(b.ptr));
          if !initOk then
            match Free(b.ledger, b.ptr, SourceFile, FreeLine)
            case Abort(m, f, n) => Some(Abort(m, f, n))
            case Ok(l') => Some(Ok(ChunkResult(0, req', l')))
          else
            Some(Ok(ChunkResult(1, Engaged(req, b.ptr), b.ledger)))
  }

  /* ---------------------------------------------------------------------
     Properties
     --------------------------------------------------------------------- */

  /** Every chunk keeps the request's stream a live block of the ledger. */
  lemma ChunkKeepsStreamTracked(req: HttpRequest, config: DeflateConfig, l: Ledger, got: Addr, initOk: bool)
    requires Valid(l) && got !in l && HeaderInBuffer(req) && StreamTracked(req, l)
    ensures var r := Chunk(req, config, l, got, initOk);
            r.Ok? ==> StreamTracked(r.value.req, r.value.ledger)
  {
  }

  /** With the configuration defaults (level 0) the filter never engages:
      every first chunk returns 0 and changes nothing. */
  lemma DefaultsNeverEngage(req: HttpRequest, l: Ledger, got: Addr, initOk: bool)
    requires Valid(l) && got !in l && HeaderInBuffer(req) && req.outputFilterData.None?
    ensures Initialize(true).1 == Some(DefaultConfig)
    ensures Chunk(req, DefaultConfig, l, got, initOk) == Ok(ChunkResult(0, req, l))
  {
  }

  /** Once a chunk has engaged the filter, the next chunk skips the
      negotiation and reuses the stream, even if the request no longer
      qualifies (its content encoding is now set). */
  lemma SecondChunkReusesStream(req: HttpRequest, config: DeflateConfig, l: Ledger, got: Addr, got': Addr, initOk': bool)
    requires Valid(l) && got !in l && got != Null && HeaderInBuffer(req) && req.outputFilterData.None?
    requires Negotiable(req, config)
    ensures var first := Chunk(req, config, l, got, true);
            && first.Ok? && first.value.ret == 1
            && !Negotiable(first.value.req, config)
            && (got' !in first.value.ledger ==>
                  Chunk(first.value.req, config, first.value.ledger, got', initOk')
                  == Ok(ChunkResult(1, first.value.req, first.value.ledger)))
  {
  }

  /** As written, a failed stream initialisation returns 0 but leaves the
      request pointing at the freed stream; the next chunk then skips the
      negotiation and uses that freed stream. */
  lemma AsWrittenLeavesFreedStream(req: HttpRequest, config: DeflateConfig, l: Ledger, got: Addr, got': Addr, initOk': bool)
    requires Valid(l) && got !in l && got != Null && HeaderInBuffer(req) && req.outputFilterData.None?
    requires NegotiableAsWritten(req, config) == Some(true)
    ensures var first := ChunkAsWritten(req, config, l, got, false);
            && first.Some? && first.value.Ok? && first.value.value.ret == 0
            && first.value.value.req.outputFilterData == Some(got)
            && !StreamTracked(first.value.value.req, first.value.value.ledger)
            && (got' !in first.value.value.ledger ==>
                  ChunkAsWritten(first.value.value.req, config, first.value.value.ledger, got', initOk')
                  == Some(Ok(ChunkResult(1, first.value.value.req, first.value.value.ledger))))
    ensures Chunk(req, config, l, got, false) == Ok(ChunkResult(0, req, l))
  {
    var b := Allocate(l, ZStreamSize, SourceFile, AllocateLine, got).value;
    assert b.ledger - {got} == l;
  }

  /** The first-'d' finding at chunk level: a client sending
      "identity, deflate" is refused by the filter as written, while the
      corrected filter engages. */
  lemma AsWrittenRefusesIdentityThenDeflate(req: HttpRequest, config: DeflateConfig, l: Ledger, got: Addr)
    requires Valid(l) && got !in l && got != Null
    requires req.readBuffer == Bytes.Ascii("identity, ") + DeflateToken.DeflateName
    requires req.acceptOffset == 0 && req.acceptLength == |req.readBuffer|
    requires req.version == Http11 && config.level != 0
    requires req.contentEncoding.None? && req.outputFilterData.None?
    ensures HeaderInBuffer(req)
    ensures ChunkAsWritten(req, config, l, got, true) == Some(Ok(ChunkResult(0, req, l)))
    ensures Chunk(req, config, l, got, true).Ok? && Chunk(req, config, l, got, true).value.ret == 1
  {
    var s := req.readBuffer;
    DeflateToken.IdentityThenDeflate();
    assert s[0..|s|] == s;
    DeflateToken.AsWrittenAgreesAwayFromEdge(s, 0, |s|);
  }

  /** The off-by-one finding at chunk level: an Accept-Encoding value
      "deflat" followed in the read buffer by 'e' engages the filter as
      written, while the corrected filter returns 0. */
  lemma AsWrittenEngagesOnTruncatedToken(req: HttpRequest, config: DeflateConfig, l: Ledger, got: Addr)
    requires Valid(l) && got !in l && got != Null
    requires req.readBuffer == DeflateToken.DeflateName
    requires req.acceptOffset == 0 && req.acceptLength == 6
    requires req.version == Http11 && config.level != 0
    requires req.contentEncoding.None? && req.outputFilterData.None?
    ensures HeaderInBuffer(req)
    ensures var r := ChunkAsWritten(req, config, l, got, true);
            r.Some? && r.value.Ok? && r.value.value.ret == 1
    ensures Chunk(req, config, l, got, true) == Ok(ChunkResult(0, req, l))
  {
    DeflateToken.DeflateNameParts();
    DeflateToken.AsWrittenAcceptsTruncatedToken();
  }

  /** Away from the two token findings the filter as written and the
      corrected filter agree: when stream initialisation succeeds and the
      as-written token check gives the corrected answer, the chunks are
      identical. */
  lemma AsWrittenAgreesWhenTokenCheckAgrees(req: HttpRequest, config: DeflateConfig, l: Ledger, got: Addr)
    requires Valid(l) && got !in l && HeaderInBuffer(req)
    requires DeflateToken.TokenCheckAsWritten(req.readBuffer, req.acceptOffset, req.acceptLength)
             == Some(DeflateToken.ContainsDeflate(AcceptEncoding(req)))
    ensures ChunkAsWritten(req, config, l, got, true) == Some(Chunk(req, config, l, got, true))
  {
  }
}

=== FILE: rewrite_vm.dfy ===
/** The HTTPRewrite bytecode interpreter: a compiled ruleset is a sequence of
    typed opcodes, each handler turns one opcode into a signal, and the
    execution loop maps the first non-continuing signal to the ruleset's
    result (1, 0 or -1). */
module RewriteVM {
  import opened Bytes

  /* ---------------------------------------------------------------------
     Values and variables
     --------------------------------------------------------------------- */

  datatype ValueType = BoolType | IntType | StringType

  /** The value union: `boolv` is an unsigned byte, `intv` an Int32,
      `stringv` a byte slice with explicit length. */
  datatype Value = BoolV(flag: uint8) | IntV(num: int32) | StrV(text: bytes)
  {
    function Type(): ValueType
    {
      match this
      case BoolV(_) => BoolType
      case IntV(_) => IntType
      case StrV(_) => StringType
    }
  }

  /** A rewrite variable. A direct variable is a field of the request; a
      callback variable is read and written through native get/set
      functions that may fail. Its declared type never changes. */
  datatype Binding = Direct(id: nat, ty: ValueType) | Callback(id: nat, ty: ValueType)

  /* ---------------------------------------------------------------------
     Opcodes and signals
     --------------------------------------------------------------------- */

  /** One compiled instruction with typed operands, in handler-table order. */
  datatype Opcode =
    | Nop
    | SetBool(dst: Binding, flag: uint8)
    | SetInt(dst: Binding, num: int32)
    | SetString(dst: Binding, text: bytes)
    | SetVariable(dst: Binding, src: Binding)
    | IsEqualBool(subject: Binding, flag: uint8)
    | IsEqualInt(subject: Binding, num: int32)
    | IsEqualString(subject: Binding, text: bytes)
    | IsEqualVariable(subject: Binding, other: Binding)
    | IsNotEqualBool(subject: Binding, flag: uint8)
    | IsNotEqualInt(subject: Binding, num: int32)
    | IsNotEqualString(subject: Binding, text: bytes)
    | IsNotEqualVariable(subject: Binding, other: Binding)
    | Call(callback: nat)
    | ActivateScope(scope: nat)
  {
    /** The opcode number: the index of its handler in the handler table. */
    function Code(): nat
    {
      match this
      case Nop => 0
      case SetBool(_, _) => 1
      case SetInt(_, _) => 2
      case SetString(_, _) => 3
      case SetVariable(_, _) => 4
      case IsEqualBool(_, _) => 5
      case IsEqualInt(_, _) => 6
      case IsEqualString(_, _) => 7
      case IsEqualVariable(_, _) => 8
      case IsNotEqualBool(_, _) => 9
      case IsNotEqualInt(_, _) => 10
      case IsNotEqualString(_, _) => 11
      case IsNotEqualVariable(_, _) => 12
      case Call(_) => 13
      case ActivateScope(_) => 14
    }

    /** The opcode has a handler (the three variable-to-variable opcodes do not). */
    predicate Implemented()
    {
      !SetVariable? && !IsEqualVariable? && !IsNotEqualVariable?
    }

    /** The literal operand has the declared type of the variable operand. */
    predicate WellTyped()
    {
      match this
      case SetBool(b, _) => b.ty == BoolType
      case SetInt(b, _) => b.ty == IntType
      case SetString(b, _) => b.ty == StringType
      case IsEqualBool(b, _) => b.ty == BoolType
      case IsEqualInt(b, _) => b.ty == IntType
      case IsEqualString(b, _) => b.ty == StringType
      case IsNotEqualBool(b, _) => b.ty == BoolType
      case IsNotEqualInt(b, _) => b.ty == IntType
      case IsNotEqualString(b, _) => b.ty == StringType
      case SetVariable(d, s) => d.ty == s.ty
      case IsEqualVariable(a, b) => a.ty == b.ty
      case IsNotEqualVariable(a, b) => a.ty == b.ty
      case _ => true
    }
  }

  /** Which entries of the handler table are non-NULL, by opcode number. */
  const HandlerPresent: seq<bool> :=
    [true, true, true, true, false,
     true, true, true, false,
     true, true, true, false,
     true, true]

  /** What a handler tells the execution loop. */
  datatype Signal = NextOpcode | StopExecution | StopExecutionAll | StopParser | Fatal
  {
    /** The signal's byte value (char assumed signed). */
    function Code(): int
    {
      match this
      case NextOpcode => 2
      case StopExecution => 1
      case StopExecutionAll => 0
      case StopParser => -1
      case Fatal => -2
    }
  }

  /* ---------------------------------------------------------------------
     Request state and native extension points
     --------------------------------------------------------------------- */

  /** What the VM can observe and change of one request: the direct
      variable fields, the writes accepted by callback setters, the
      request's scope group, and whether HTTP 500 has been raised. */
  datatype Request = Request(
    fields: map<Binding, Value>,
    callbackWrites: seq<(Binding, Value)>,
    scopeGroup: seq<nat>,
    raised500: bool)

  /** The native code a ruleset reaches: callback getters (None = failure),
      callback setters (false = failure) and CALL targets. A CALL target's
      return value is an unconstrained integer, wider than the C byte it
      returns; only 1, 0 and -1 have a meaning of their own. */
  datatype Natives = Natives(
    getter: (Binding, Request) -> Option<Value>,
    setter: (Binding, Value, Request) -> bool,
    call: (nat, Request) -> int)

  /** A direct variable refers to a field that exists. */
  predicate Resolvable(b: Binding, keys: set<Binding>)
  {
    b.Direct? ==> b in keys
  }

  /** An opcode the interpreter can dispatch against a request whose
      direct fields are `keys`. */
  predicate Ready(op: Opcode, keys: set<Binding>)
  {
    && op.Implemented()
    && match op
       case SetBool(b, _) => Resolvable(b, keys)
       case SetInt(b, _) => Resolvable(b, keys)
       case SetString(b, _) => Resolvable(b, keys)
       case IsEqualBool(b, _) => Resolvable(b, keys)
       case IsEqualInt(b, _) => Resolvable(b, keys)
       case IsEqualString(b, _) => Resolvable(b, keys)
       case IsNotEqualBool(b, _) => Resolvable(b, keys)
       case IsNotEqualInt(b, _) => Resolvable(b, keys)
       case IsNotEqualString(b, _) => Resolvable(b, keys)
       case _ => true
  }

  predicate Runnable(ops: seq<Opcode>, keys: set<Binding>)
  {
    forall i :: 0 <= i < |ops| ==> Ready(ops[i], keys)
  }

  /** Every direct field holds a value of its variable's declared type. */
  predicate FieldsTyped(req: Request)
  {
    forall b :: b in req.fields ==> req.fields[b].Type() == b.ty
  }

  /** Every callback getter returns, when it succeeds, a value of its
      variable's declared type. Nothing in the interpreter enforces this. */
  ghost predicate GettersTyped(n: Natives)
  {
    forall b: Binding, req: Request :: n.getter(b, req).Some? ==> n.getter(b, req).value.Type() == b.ty
  }

  /* ---------------------------------------------------------------------
     Variable access
     --------------------------------------------------------------------- */

  /** Read a variable: a direct field never fails, a callback may. */
  function ResolveGet(b: Binding, req: Request, n: Natives): Option<Value>
    requires Resolvable(b, req.fields.Keys)
  {
    if b.Callback? then n.getter(b, req) else Some(req.fields[b])
  }

  /** Write a variable; None when the callback setter fails. */
  function ResolveSet(b: Binding, v: Value, req: Request, n: Natives): Option<Request>
  {
    if b.Callback? then
      if n.setter(b, v, req) then Some(req.(callbackWrites := req.callbackWrites + [(b, v)]))
      else None
    else Some(req.(fields := req.fields[b := v]))
  }

  /** memcmp(a, b, n) == 0 */
  predicate MemEqual(a: bytes, b: bytes, n: nat)
    requires n <= |a| && n <= |b|
  {
    forall i :: 0 <= i < n ==> a[i] == b[i]
  }

  /** The comparison the IS_EQUAL handlers perform for a literal's type:
      byte equality for booleans, Int32 equality, and for strings equal
      length followed by memcmp over the literal's length. */
  predicate Matches(v: Value, lit: Value)
  {
    match lit
    case BoolV(f) => v.BoolV? && v.flag == f
    case IntV(k) => v.IntV? && v.num == k
    case StrV(s) => v.StrV? && |v.text| == |s| && MemEqual(v.text, s, |s|)
  }

  /* ---------------------------------------------------------------------
     Handlers
     --------------------------------------------------------------------- */

  datatype Effect = Effect(signal: Signal, req: Request)

  /** SET_BOOL / SET_INT / SET_STRING. */
  function SetHandler(b: Binding, lit: Value, req: Request, n: Natives): (e: Effect)
    ensures e.signal == NextOpcode || e.signal == Fatal
    ensures e.signal == Fatal <==> b.Callback? && !n.setter(b, lit, req)
    ensures b.Direct? ==> e.req.fields == req.fields[b := lit] && e.req.callbackWrites == req.callbackWrites
    ensures b.Callback? ==> e.req.fields == req.fields
    ensures b.Callback? ==>
              e.req.callbackWrites
              == (if e.signal == Fatal then req.callbackWrites else req.callbackWrites + [(b, lit)])
    ensures e.req.scopeGroup == req.scopeGroup && e.req.raised500 == req.raised500
  {
    match ResolveSet(b, lit, req, n)
    case None => Effect(Fatal, req)
    case Some(r) => Effect(NextOpcode, r)
  }

  /** IS_EQUAL_BOOL / IS_EQUAL_INT / IS_EQUAL_STRING. */
  function IsEqualHandler(b: Binding, lit: Value, req: Request, n: Natives): (e: Effect)
    requires Resolvable(b, req.fields.Keys)
    ensures e.req == req
    ensures ResolveGet(b, req, n).None? <==> e.signal == Fatal
    ensures ResolveGet(b, req, n).Some? ==>
              (e.signal == NextOpcode <==> ResolveGet(b, req, n).value == lit)
    ensures e.signal in {NextOpcode, StopExecution, Fatal}
  {
    match ResolveGet(b, req, n)
    case None => Effect(Fatal, req)
    case Some(v) =>
      MatchesIsEquality(v, lit);
      if !Matches(v, lit) then Effect(StopExecution, req) else Effect(NextOpcode, req)
  }

  /** IS_NOT_EQUAL_BOOL / IS_NOT_EQUAL_INT / IS_NOT_EQUAL_STRING. */
  function IsNotEqualHandler(b: Binding, lit: Value, req: Request, n: Natives): (e: Effect)
    requires Resolvable(b, req.fields.Keys)
    ensures e.req == req
    ensures ResolveGet(b, req, n).None? <==> e.signal == Fatal
    ensures ResolveGet(b, req, n).Some? ==>
              (e.signal == NextOpcode <==> ResolveGet(b, req, n).value != lit)
    ensures e.signal in {NextOpcode, StopExecution, Fatal}
  {
    match ResolveGet(b, req, n)
    case None => Effect(Fatal, req)
    case Some(v) =>
      MatchesIsEquality(v, lit);
      if Matches(v, lit) then Effect(StopExecution, req) else Effect(NextOpcode, req)
  }

  /** The signal CALL derives from a native callback's return value. */
  function CallSignal(ret: int): (s: Signal)
    ensures s == NextOpcode <==> ret == 1
    ensures s == StopExecution <==> ret == 0
    ensures s == StopParser <==> ret == -1
    ensures s == Fatal <==> ret !in {1, 0, -1}
  {
    if ret == 1 then NextOpcode
    else if ret == 0 then StopExecution
    else if ret == -1 then StopParser
    else Fatal
  }

  /** CALL. */
  function CallHandler(callback: nat, req: Request, n: Natives): (e: Effect)
    ensures e.req == req
    ensures n.call(callback, req) == 1 <==> e.signal == NextOpcode
    ensures n.call(callback, req) == 0 <==> e.signal == StopExecution
    ensures n.call(callback, req) == -1 <==> e.signal == StopParser
    ensures n.call(callback, req) !in {1, 0, -1} <==> e.signal == Fatal
  {
    Effect(CallSignal(n.call(callback, req)), req)
  }

  /** ACTIVATE_SCOPE. */
  function ActivateScopeHandler(scope: nat, req: Request): (e: Effect)
    ensures e.signal == NextOpcode
    ensures e.req.scopeGroup == req.scopeGroup + [scope]
    ensures e.req.fields == req.fields && e.req.callbackWrites == req.callbackWrites
    ensures e.req.raised500 == req.raised500
  {
    Effect(NextOpcode, req.(scopeGroup := req.scopeGroup + [scope]))
  }

  /** Dispatch one opcode through the handler table. */
  function Step(op: Opcode, req: Request, n: Natives): (e: Effect)
    requires Ready(op, req.fields.Keys)
    ensures e.signal != StopExecutionAll
    ensures e.signal == StopParser ==> op.Call?
    ensures e.req.fields.Keys == req.fields.Keys
    ensures e.req.raised500 == req.raised500
    ensures !op.ActivateScope? ==> e.req.scopeGroup == req.scopeGroup
    ensures !op.SetBool? && !op.SetInt? && !op.SetString? && !op.ActivateScope? ==> e.req == req
  {
    match op
    case Nop => Effect(NextOpcode, req)
    case SetBool(b, f) => SetHandler(b, BoolV(f), req, n)
    case SetInt(b, k) => SetHandler(b, IntV(k), req, n)
    case SetString(b, s) => SetHandler(b, StrV(s), req, n)
    case IsEqualBool(b, f) => IsEqualHandler(b, BoolV(f), req, n)
    case IsEqualInt(b, k) => IsEqualHandler(b, IntV(k), req, n)
    case IsEqualString(b, s) => IsEqualHandler(b, StrV(s), req, n)
    case IsNotEqualBool(b, f) => IsNotEqualHandler(b, BoolV(f), req, n)
    case IsNotEqualInt(b, k) => IsNotEqualHandler(b, IntV(k), req, n)
    case IsNotEqualString(b, s) => IsNotEqualHandler(b, StrV(s), req, n)
    case Call(c) => CallHandler(c, req, n)
    case ActivateScope(s) => ActivateScopeHandler(s, req)
  }

  /* ---------------------------------------------------------------------
     The execution loop
     --------------------------------------------------------------------- */

  /** What the loop does with a handler's byte: keep going, or return a
      result (raising HTTP 500 first when asked). */
  datatype Control = Continue | Return(result: int, raise500: bool)

  /** The switch of the execution loop over a handler's return byte. Bytes
      it has no case for (NEXT_OPCODE among them) fall through. */
  function Dispatch(code: int): Control
  {
    if code == StopExecution.Code() then Return(1, false)
    else if code == StopExecutionAll.Code() then Return(0, false)
    else if code == Fatal.Code() then Return(-1, true)
    else if code == StopParser.Code() then Return(-1, false)
    else Continue
  }

  /** The result of running a ruleset: the returned byte, the request
      afterwards, how many opcodes were dispatched, and the signal that
      ended the run (NextOpcode when every opcode continued). */
  datatype Outcome = Outcome(result: int, req: Request, executed: nat, last: Signal)

  /** The ruleset's semantics, one opcode at a time from index 0. */
  function Run(ops: seq<Opcode>, req: Request, n: Natives): (o: Outcome)
    requires Runnable(ops, req.fields.Keys)
    ensures o.executed <= |ops|
    ensures o.last == NextOpcode ==> o.executed == |ops|
    ensures o.last != NextOpcode ==> 1 <= o.executed
    ensures o.last != StopExecutionAll && o.result != 0
    ensures o.result == 1 <==> o.last == NextOpcode || o.last == StopExecution
    ensures o.result == -1 <==> o.last == Fatal || o.last == StopParser
    ensures o.req.raised500 <==> req.raised500 || o.last == Fatal
    ensures o.req.fields.Keys == req.fields.Keys
    decreases |ops|
  {
    if |ops| == 0 then Outcome(1, req, 0, NextOpcode)
    else
      var e := Step(ops[0], req, n);
      match Dispatch(e.signal.Code())
      case Continue =>
        var o := Run(ops[1..], e.req, n);
        o.(executed := o.executed + 1)
      case Return(r, raise) =>
        Outcome(r, if raise then e.req.(raised500 := true) else e.req, 1, e.signal)
  }

  /** Two outcomes that agree on everything the caller observes. */
  predicate SameEnd(a: Outcome, b: Outcome)
  {
    a.result == b.result && a.req == b.req && a.last == b.last
  }

  /** The execution loop as written: a counted loop over the opcodes that
      returns on the first signal the switch has a case for. */
  method Execute(ops: seq<Opcode>, req: Request, n: Natives) returns (result: int, final: Request)
    requires Runnable(ops, req.fields.Keys)
    ensures result == Run(ops, req, n).result
    ensures final == Run(ops, req, n).req
  {
    var i := 0;
    var cur := req;
    while i < |ops|
      invariant 0 <= i <= |ops|
      invariant cur.fields.Keys == req.fields.Keys
      invariant SameEnd(Run(ops, req, n), Run(ops[i..], cur, n))
    {
      assert ops[i..][0] == ops[i];
      assert ops[i..][1..] == ops[i + 1..];
      var e := Step(ops[i], cur, n);
      match Dispatch(e.signal.Code()) {
        case Continue =>
          cur := e.req;
          i := i + 1;
        case Return(r, raise) =>
          if raise {
            cur := e.req.(raised500 := true);
          } else {
            cur := e.req;
          }
          return r, cur;
      }
    }
    return 1, cur;
  }

  /* ---------------------------------------------------------------------
     Facts the definitions above rely on
     --------------------------------------------------------------------- */

  /** The IS_EQUAL comparison is exactly value equality: for strings,
      equal length plus memcmp over that length is sequence equality. */
  lemma MatchesIsEquality(v: Value, lit: Value)
    ensures Matches(v, lit) <==> v == lit
  {
    if lit.StrV? && v.StrV? && |v.text| == |lit.text| && MemEqual(v.text, lit.text, |lit.text|) {
      assert v.text == lit.text;
    }
  }

  /** Among the handlers' signals only NEXT_OPCODE lets the loop go on;
      STOP_EXECUTION and a completed loop both give 1, and only FATAL
      raises HTTP 500. */
  lemma DispatchOfSignals(s: Signal)
    ensures Dispatch(s.Code()).Continue? <==> s == NextOpcode
    ensures Dispatch(s.Code()) == Return(1, false) <==> s == StopExecution
    ensures Dispatch(s.Code()) == Return(0, false) <==> s == StopExecutionAll
    ensures Dispatch(s.Code()).Return? && Dispatch(s.Code()).raise500 <==> s == Fatal
    ensures Dispatch(s.Code()) == Return(-1, false) <==> s == StopParser
  {
  }

  /** The handler table is non-NULL exactly for the implemented opcodes. */
  lemma HandlerTableMatchesImplemented(op: Opcode)
    ensures op.Code() < |HandlerPresent|
    ensures HandlerPresent[op.Code()] <==> op.Implemented()
  {
  }

  /** Distinct opcode kinds have distinct numbers; the first five are the
      numbers of the opcode header. */
  lemma OpcodeNumbers()
    ensures Nop.Code() == 0
    ensures forall b: Binding, f: uint8 :: SetBool(b, f).Code() == 1
    ensures forall b: Binding, k: int32 :: SetInt(b, k).Code() == 2
    ensures forall b: Binding, s: bytes :: SetString(b, s).Code() == 3
    ensures forall d: Binding, s: Binding :: SetVariable(d, s).Code() == 4
  {
  }
}

=== FILE: rewrite_vm_properties.dfy ===
/** Properties of the HTTPRewrite interpreter that relate several opcodes
    or several runs. */
module RewriteVMProperties {
  import opened Bytes
  import opened RewriteVM

  /** The SET opcode that writes `v` into `b`. */
  function SetOpcode(b: Binding, v: Value): (op: Opcode)
    ensures op.Implemented() && (op.SetBool? || op.SetInt? || op.SetString?)
  {
    match v
    case BoolV(f) => SetBool(b, f)
    case IntV(k) => SetInt(b, k)
    case StrV(s) => SetString(b, s)
  }

  lemma RunnableSplit(ops: seq<Opcode>, tail: seq<Opcode>, keys: set<Binding>)
    requires Runnable(ops + tail, keys)
    ensures Runnable(ops, keys) && Runnable(tail, keys)
  {
    assert forall i :: 0 <= i < |ops| ==> ops[i] == (ops + tail)[i];
    assert forall i :: 0 <= i < |tail| ==> tail[i] == (ops + tail)[|ops| + i];
  }

  /* ---------------------------------------------------------------------
     Order of execution
     --------------------------------------------------------------------- */

  /** Once an opcode stops the run, the opcodes after it are never
      dispatched: appending anything leaves the outcome unchanged. */
  lemma {:induction false} StopIgnoresRest(ops: seq<Opcode>, tail: seq<Opcode>, req: Request, n: Natives)
    requires Runnable(ops + tail, req.fields.Keys)
    requires Runnable(ops, req.fields.Keys)
    requires Run(ops, req, n).last != NextOpcode
    ensures Run(ops + tail, req, n) == Run(ops, req, n)
    decreases |ops|
  {
    assert (ops + tail)[0] == ops[0];
    assert (ops + tail)[1..] == ops[1..] + tail;
    var e := Step(ops[0], req, n);
    if Dispatch(e.signal.Code()).Continue? {
      RunnableSplit(ops[1..], tail, e.req.fields.Keys);
      StopIgnoresRest(ops[1..], tail, e.req, n);
    }
  }

  /** Opcodes run strictly in index order: when a prefix runs to its end,
      the rest starts from the request the prefix left behind, and the
      opcode count adds up. */
  lemma {:induction false} RunAppend(ops: seq<Opcode>, tail: seq<Opcode>, req: Request, n: Natives)
    requires Runnable(ops + tail, req.fields.Keys)
    requires Runnable(ops, req.fields.Keys)
    requires Run(ops, req, n).last == NextOpcode
    ensures Runnable(tail, Run(ops, req, n).req.fields.Keys)
    ensures Run(ops + tail, req, n)
         == var o := Run(tail, Run(ops, req, n).req, n); o.(executed := |ops| + o.executed)
    decreases |ops|
  {
    RunnableSplit(ops, tail, req.fields.Keys);
    if |ops| == 0 {
      assert ops + tail == tail;
    } else {
      assert (ops + tail)[0] == ops[0];
      assert (ops + tail)[1..] == ops[1..] + tail;
      var e := Step(ops[0], req, n);
      RunnableSplit(ops[1..], tail, e.req.fields.Keys);
      RunAppend(ops[1..], tail, e.req, n);
    }
  }

  /** The outcome is decided by the opcodes up to and including the one
      that ended the run. */
  lemma ExecutedPrefixDecides(ops: seq<Opcode>, req: Request, n: Natives)
    requires Runnable(ops, req.fields.Keys)
    ensures var k := Run(ops, req, n).executed;
            Runnable(ops[..k], req.fields.Keys) && Run(ops[..k], req, n) == Run(ops, req, n)
  {
    var o := Run(ops, req, n);
    var k := o.executed;
    assert ops == ops[..k] + ops[k..];
    RunnableSplit(ops[..k], ops[k..], req.fields.Keys);
    if o.last == NextOpcode {
      assert ops[..k] == ops;
    } else {
      ExecutedPrefixStops(ops, req, n);
      StopIgnoresRest(ops[..k], ops[k..], req, n);
    }
  }

  lemma {:induction false} ExecutedPrefixStops(ops: seq<Opcode>, req: Request, n: Natives)
    requires Runnable(ops, req.fields.Keys)
    requires Run(ops, req, n).last != NextOpcode
    ensures Runnable(ops[..Run(ops, req, n).executed], req.fields.Keys)
    ensures Run(ops[..Run(ops, req, n).executed], req, n) == Run(ops, req, n)
    decreases |ops|
  {
    var k := Run(ops, req, n).executed;
    assert ops == ops[..k] + ops[k..];
    RunnableSplit(ops[..k], ops[k..], req.fields.Keys);
    var e := Step(ops[0], req, n);
    assert ops[..k][0] == ops[0];
    if Dispatch(e.signal.Code()).Continue? {
      ExecutedPrefixStops(ops[1..], e.req, n);
      assert ops[..k][1..] == ops[1..][..k - 1];
    }
  }

  /* ---------------------------------------------------------------------
     Invariants of a run
     --------------------------------------------------------------------- */

  /** The scope group only grows: the old group is a prefix of the new
      one, and a ruleset without ACTIVATE_SCOPE leaves it unchanged. */
  lemma {:induction false} ScopeGroupOnlyGrows(ops: seq<Opcode>, req: Request, n: Natives)
    requires Runnable(ops, req.fields.Keys)
    ensures req.scopeGroup <= Run(ops, req, n).req.scopeGroup
    ensures (forall i :: 0 <= i < |ops| ==> !ops[i].ActivateScope?) ==>
              Run(ops, req, n).req.scopeGroup == req.scopeGroup
    decreases |ops|
  {
    if |ops| > 0 {
      var e := Step(ops[0], req, n);
      if Dispatch(e.signal.Code()).Continue? {
        assert forall i :: 0 <= i < |ops| - 1 ==> ops[1..][i] == ops[i + 1];
        ScopeGroupOnlyGrows(ops[1..], e.req, n);
      }
    }
  }

  /** SET writes only literals of the variable's declared type, so a well
      typed ruleset keeps every direct field well typed. */
  lemma {:induction false} RunPreservesFieldsTyped(ops: seq<Opcode>, req: Request, n: Natives)
    requires Runnable(ops, req.fields.Keys)
    requires forall i :: 0 <= i < |ops| ==> ops[i].WellTyped()
    requires FieldsTyped(req)
    ensures FieldsTyped(Run(ops, req, n).req)
    decreases |ops|
  {
    if |ops| > 0 {
      var e := Step(ops[0], req, n);
      assert ops[0].WellTyped();
      assert FieldsTyped(e.req);
      if Dispatch(e.signal.Code()).Continue? {
        assert forall i :: 0 <= i < |ops| - 1 ==> ops[1..][i] == ops[i + 1];
        RunPreservesFieldsTyped(ops[1..], e.req, n);
      }
    }
  }

  /** With well-typed fields and getters, a test of a well-typed opcode
      reads a value of its literal's variant, so the comparison never meets
      a variant mismatch. A getter that breaks `GettersTyped` can still
      produce one. */
  lemma TypedReadsMatchLiteralVariant(b: Binding, lit: Value, req: Request, n: Natives)
    requires Resolvable(b, req.fields.Keys) && FieldsTyped(req) && GettersTyped(n)
    requires lit.Type() == b.ty
    ensures ResolveGet(b, req, n).Some? ==> ResolveGet(b, req, n).value.Type() == lit.Type()
  {
  }

  /** A ruleset of NOPs returns 1 and changes nothing. */
  lemma {:induction false} NopsChangeNothing(ops: seq<Opcode>, req: Request, n: Natives)
    requires forall i :: 0 <= i < |ops| ==> ops[i] == Nop
    ensures Runnable(ops, req.fields.Keys)
    ensures Run(ops, req, n) == Outcome(1, req, |ops|, NextOpcode)
    decreases |ops|
  {
    if |ops| > 0 {
      assert forall i :: 0 <= i < |ops| - 1 ==> ops[1..][i] == ops[i + 1];
      NopsChangeNothing(ops[1..], req, n);
    }
  }

  /* ---------------------------------------------------------------------
     Single opcodes
     --------------------------------------------------------------------- */

  /** After a SET on a direct variable, reading it gives back the literal
      (same length and bytes for strings) and every other field is as
      before. */
  lemma SetThenGet(b: Binding, lit: Value, other: Binding, req: Request, n: Natives)
    requires b.Direct?
    requires other.Direct? && other != b && other in req.fields
    ensures var e := SetHandler(b, lit, req, n);
            && e.signal == NextOpcode
            && ResolveGet(b, e.req, n) == Some(lit)
            && ResolveGet(other, e.req, n) == ResolveGet(other, req, n)
  {
  }

  /** IS_NOT_EQUAL is IS_EQUAL with the two outcomes swapped; a failed
      read is fatal for both. */
  lemma IsNotEqualNegatesIsEqual(b: Binding, lit: Value, req: Request, n: Natives)
    requires Resolvable(b, req.fields.Keys)
    ensures var eq := IsEqualHandler(b, lit, req, n);
            var ne := IsNotEqualHandler(b, lit, req, n);
            && (eq.signal == Fatal <==> ne.signal == Fatal)
            && (eq.signal == NextOpcode <==> ne.signal == StopExecution)
            && (eq.signal == StopExecution <==> ne.signal == NextOpcode)
  {
  }

  /** A CALL ruleset: the callback's 1 and 0 both give result 1, -1 gives
      -1 without a 500, anything else gives -1 and raises HTTP 500. */
  lemma CallOutcomes(c: nat, req: Request, n: Natives)
    ensures Runnable([Call(c)], req.fields.Keys)
    ensures var ret := n.call(c, req);
            var o := Run([Call(c)], req, n);
            && (ret == 1 || ret == 0 ==> o.result == 1 && o.req == req)
            && (ret == -1 ==> o.result == -1 && o.req == req)
            && (ret !in {1, 0, -1} ==> o.result == -1 && o.req == req.(raised500 := true))
  {
    var ret := n.call(c, req);
    assert [Call(c)][1..] == [];
  }

  /* ---------------------------------------------------------------------
     Scenarios
     --------------------------------------------------------------------- */

  /** Result 1 is returned both by a run that completes and by a run cut
      short by a failed condition, so the result alone cannot tell them
      apart. */
  lemma ResultOneIsAmbiguous(b: Binding, req: Request, n: Natives)
    requires b.Direct? && b in req.fields && req.fields[b] == BoolV(0)
    ensures Runnable([IsEqualBool(b, 1)], req.fields.Keys)
    ensures Run([], req, n).result == 1 && Run([], req, n).last == NextOpcode
    ensures Run([IsEqualBool(b, 1)], req, n).result == 1
    ensures Run([IsEqualBool(b, 1)], req, n).last == StopExecution
  {
  }

  /** SET_INT x 5; IS_EQUAL_INT x 5; ACTIVATE_SCOPE s on a direct x
      returns 1 and activates exactly s. */
  lemma SetTestActivate(x: Binding, s: nat, req: Request, n: Natives)
    requires x.Direct? && x in req.fields && req.scopeGroup == []
    ensures var ops := [SetInt(x, 5), IsEqualInt(x, 5), ActivateScope(s)];
            && Runnable(ops, req.fields.Keys)
            && Run(ops, req, n).result == 1
            && Run(ops, req, n).last == NextOpcode
            && Run(ops, req, n).req.scopeGroup == [s]
            && Run(ops, req, n).req.fields[x] == IntV(5)
  {
    var ops := [SetInt(x, 5), IsEqualInt(x, 5), ActivateScope(s)];
    var r1 := req.(fields := req.fields[x := IntV(5)]);
    var r2 := r1.(scopeGroup := [s]);
    assert ops[1..] == [IsEqualInt(x, 5), ActivateScope(s)];
    assert ops[1..][1..] == [ActivateScope(s)];
    assert Run([ActivateScope(s)], r1, n) == Outcome(1, r2, 1, NextOpcode) by {
      assert [ActivateScope(s)][1..] == [];
    }
    assert Run(ops[1..], r1, n) == Outcome(1, r2, 2, NextOpcode);
  }

  /** A failed string comparison short-circuits: the ACTIVATE_SCOPE after
      it never runs. */
  lemma FailedConditionSkipsScope(y: Binding, lit: bytes, s: nat, req: Request, n: Natives)
    requires y.Direct? && y in req.fields && req.fields[y] != StrV(lit)
    ensures var ops := [IsEqualString(y, lit), ActivateScope(s)];
            && Runnable(ops, req.fields.Keys)
            && Run(ops, req, n) == Outcome(1, req, 1, StopExecution)
  {
  }

  /** A callback whose getter fails makes the condition fatal whatever
      follows: the run returns -1 and raises HTTP 500. */
  lemma GetFailureIsFatal(y: Binding, lit: Value, rest: seq<Opcode>, req: Request, n: Natives)
    requires y.Callback? && n.getter(y, req).None?
    requires Runnable(rest, req.fields.Keys)
    ensures var first := match lit
                         case BoolV(f) => IsEqualBool(y, f)
                         case IntV(k) => IsEqualInt(y, k)
                         case StrV(t) => IsEqualString(y, t);
            && Runnable([first] + rest, req.fields.Keys)
            && Run([first] + rest, req, n) == Outcome(-1, req.(raised500 := true), 1, Fatal)
  {
    var first := match lit
                 case BoolV(f) => IsEqualBool(y, f)
                 case IntV(k) => IsEqualInt(y, k)
                 case StrV(t) => IsEqualString(y, t);
    assert ([first] + rest)[0] == first;
    assert forall i :: 0 <= i < |rest| ==> ([first] + rest)[i + 1] == rest[i];
  }

  /** Two SETs on different direct variables commute. */
  lemma DisjointSetsCommute(x: Binding, vx: Value, y: Binding, vy: Value, req: Request, n: Natives)
    requires x.Direct? && y.Direct? && x != y && x in req.fields && y in req.fields
    ensures Runnable([SetOpcode(x, vx), SetOpcode(y, vy)], req.fields.Keys)
    ensures Run([SetOpcode(x, vx), SetOpcode(y, vy)], req, n)
         == Run([SetOpcode(y, vy), SetOpcode(x, vx)], req, n)
  {
    var a := [SetOpcode(x, vx), SetOpcode(y, vy)];
    var b := [SetOpcode(y, vy), SetOpcode(x, vx)];
    assert a[1..] == [SetOpcode(y, vy)] && a[1..][1..] == [];
    assert b[1..] == [SetOpcode(x, vx)] && b[1..][1..] == [];
    assert req.fields[x := vx][y := vy] == req.fields[y := vy][x := vx];
  }

  /** A SET and a later test of the same variable do not commute. */
  lemma DependentOpcodesDoNotCommute(x: Binding, req: Request, n: Natives)
    requires x.Direct? && x in req.fields && req.fields[x] != IntV(5)
    ensures Runnable([SetInt(x, 5), IsEqualInt(x, 5)], req.fields.Keys)
    ensures Run([SetInt(x, 5), IsEqualInt(x, 5)], req, n).last == NextOpcode
    ensures Run([IsEqualInt(x, 5), SetInt(x, 5)], req, n).last == StopExecution
    ensures Run([SetInt(x, 5), IsEqualInt(x, 5)], req, n).req
         != Run([IsEqualInt(x, 5), SetInt(x, 5)], req, n).req
  {
    var a := [SetInt(x, 5), IsEqualInt(x, 5)];
    var r1 := req.(fields := req.fields[x := IntV(5)]);
    assert a[1..] == [IsEqualInt(x, 5)];
    assert Run([IsEqualInt(x, 5)], r1, n) == Outcome(1, r1, 1, NextOpcode) by {
      assert [IsEqualInt(x, 5)][1..] == [];
    }
    assert Run(a, req, n).req == r1;
  }
}
